=== FILE: README.md ===
# django_wfe workflow engine, modelled in Dafny

This project models the execution core of `django_wfe`, a workflow engine for
Django. A workflow class declares a `DIGRAPH`: each step class maps to the
ordered list of step classes that may follow it. A `Job` runs one workflow.
It starts at `__start__`, runs each step's `execute` and `transition`, and
records results in `storage["data"]`. It follows the edge that `transition`
picks and stops in one of three ways:

- the job is `FINISHED` at a step with no successors;
- the job is `FAILED` when anything raises;
- the job is `INPUT_REQUIRED` at a step whose input schema declares fields.

In that last case `provide_external_input` validates a payload, stores it on
the current log entry and marks the job `INPUT_RECEIVED`, so that the next
`execute` resumes at the same step.

The files, one module each:

- `values.dfy` (`Values`): the values Python code passes around (`None`,
  booleans, integers, floats as exact reals, strings, lists and dicts), the
  exceptions, `Option`/`Result`, and Python's list-index rule.
- `paths.dfy` (`Paths`): dotted paths, `module + "." + name` and
  `rsplit(".", 1)`.
- `execution_log.dfy` (`ExecutionLog`): `storage["data"]` and the three ways
  the engine reads and writes it.
- `steps.dfy` (`Steps`): the step contract. This covers `requires_input`,
  `_perform_execute`/`_perform_transition`, and the defaults of `Step`,
  `Decision` and `__start__`. User code appears as pure function values.
- `workflows.dfy` (`Workflows`): the graph as an insertion-ordered association
  list, `DIGRAPH.get`, and `_get_steps_classes`.
- `loader.dfy` (`Loader`): importable modules as ordered member lists, and
  `Job.import_class`.
- `jobs.dfy` (`Jobs`): the job state machine. This covers `_run_next` and its
  four phases, `execute`, `provide_external_input`, and `save`'s default start
  step.
- `reconciler.dfy` (`Reconciler`): `update_wdk_models`, the insert-if-absent
  reconciliation of the `Workflow` and `Step` tables.
- `watchdog.dfy` (`Watchdog`): the `Watchdog` singleton flag that starts the
  reconciler's scheduler once.
- `scenarios.dfy` (`Scenarios`): the workflows of the test module, and the
  runs the job tests expect of them.

Modelling choices:

- A class is known by its `__module__` and `__name__` (`ClassRef`). Its path is
  the two joined with a dot.
- The `Step` table maps path to name. The `Workflow` table does the same.
- An `Env` holds the importable modules and the `Step` table.
- Python's recursion limit on the recursive `_run_next` is a `depth`
  parameter. Running out of it raises `RecursionError`, which `execute` turns
  into `FAILED`, as it does any other exception.
- The scenarios are stated for every environment that defines the test
  classes as the test module does. The class names and step behaviours are
  parameters, constrained by predicates such as `ReturnsNone` and
  `ReadsExternalInt`. The test module's own step definitions
  (`Scenarios.ExternalInputStep`, `Scenarios.ErrorStep`, `Steps.StartStep`) are
  shown to meet those predicates.

Three facts about the code shape the model:

- `update_wdk_models` only ever inserts registry records. Neither `Workflow`
  nor `Step` has a `deleted` flag, and the reconciler never removes a record.
- `execute` has no guard on the job's state. A `FINISHED` or `FAILED` job runs
  its current step again, exactly as a pending job would
  (`Jobs.ExecuteIgnoresState`).
- `requires_input` holds when the input schema declares any field, required
  or not.

## Model

| member | source | states |
|---|---|---|
| Values.IndexValue | django_wfe/models.py:350-356 | a value can index a Python list exactly when it is an `int` or a `bool`: an `int` as itself, `False` as 0 and `True` as 1 |
| Values.PyIndex | django_wfe/models.py:350-356 | Python list indexing: defined exactly for `-len <= i < len`, counting from the end for negative `i` |
| Paths.Split | django_wfe/models.py:133 | `rsplit(".", 1)` succeeds exactly when the path holds a dot; joining the two parts gives the path back, and the class name holds no dot |
| Paths.SplitJoin | django_wfe/utils.py:93 | splitting `module + "." + name` gives back `module` and `name` whenever the name holds no dot, even if the module path does |
| ExecutionLog.PreviousInput | django_wfe/models.py:198-203 | the input of step `n` is `None` on an empty log and otherwise `data[n - 1]["result"]`: at `n == 0` the last entry; past the end `IndexError`; an entry without a result `KeyError` |
| ExecutionLog.WriteResult | django_wfe/models.py:278-284 | the result overwrites entry `n` keeping its step and external data, or is appended at the end when entry `n` is missing; no other entry changes; from a log of `n` or `n + 1` entries the log has `n + 1` entries, the next step reads the result, and the external input of step `n` is unchanged |
| ExecutionLog.WriteExternal | django_wfe/models.py:171-179 | the payload is set on entry `n` keeping its step and result, or is appended when entry `n` is missing; no other entry changes; step `n` then reads it as its external input unless the log was shorter than `n` |
| ExecutionLog.ExternalInputAt | django_wfe/steps.py:34-39 | the external input of step `n` is entry `n`'s `external_data`; a missing entry (`IndexError`) or a missing key (`KeyError`) gives `None` |
| Steps.BaseSchema | django_wfe/steps.py:20-21 | the base input schema declares no field and accepts every payload, keeping nothing of it |
| Steps.BaseStep | django_wfe/steps.py:26-30 | `BaseStep`'s `execute` and `transition` both raise `NotImplementedError` |
| Steps.PlainStep | django_wfe/steps.py:63-72 | a `Step` needs no input, its `execute` raises `NotImplementedError`, and its `transition` picks edge 0 whatever its arguments |
| Steps.PlainDecision | django_wfe/steps.py:75-84 | a `Decision` needs no input, its `execute` returns `None`, and its `transition` raises `NotImplementedError` |
| Steps.StartStep | django_wfe/steps.py:87-99 | `__start__` needs no input, returns `None` and picks edge 0 whatever its inputs |
| Steps.PerformExecute | django_wfe/steps.py:32-41 | the user's `execute` receives the previous result and entry `n`'s `external_data`, or `None` when that entry or its key is missing |
| Steps.PerformTransition | django_wfe/steps.py:43-52 | the user's `transition` receives the previous result, the same external input as `execute`, and the result |
| Steps.ExecuteSeesProvidedInput | django_wfe/models.py:171-179 | once a payload is stored for step `n`, that step's `execute` receives it; only when the log had fewer than `n` entries does the appended entry land elsewhere, and the step receives `None` |
| Steps.TransitionSeesExecuteInput | django_wfe/steps.py:43-52 | `transition` runs after the result has been written to the log, yet it receives the same external input that `execute` received |
| Workflows.Successors | django_wfe/models.py:334-336 | `DIGRAPH.get(step)`: missing exactly when the step is not a key; otherwise the successor list of its entry |
| Workflows.Dedup | django_wfe/workflows.py:35 | `dict.fromkeys` keeps exactly the elements of its input, without repetition, ordered by first occurrence |
| Workflows.StepsClasses | django_wfe/workflows.py:16-35 | `_get_steps_classes`: empty for a `None` graph; otherwise exactly the keys and successors, each once, ordered by first occurrence in keys followed by successors |
| Workflows.KeysComeFirst | django_wfe/workflows.py:29-32 | in `_get_steps_classes` every graph key comes before every class that appears only as a successor |
| Loader.ImportClass | django_wfe/models.py:125-136 | `import_class` resolves a path to a module member; a path without a dot raises `ValueError`; a success names the module and a dot-free class name that together make up the path |
| Loader.ImportByPath | django_wfe/models.py:133-134 | importing a class by its stored path raises `ModuleNotFoundError` when the module is missing and `AttributeError` when the name is; otherwise it returns that very class |
| Jobs.CurrentStepClass | django_wfe/models.py:158 | the current step's class is imported from its record's path: a job without a current step raises `AttributeError`, a failed import raises its own error, and a member that is not a step class is refused |
| Jobs.LoadFrame | django_wfe/models.py:190-191 | a loaded frame is for the job's current step, its class's path is that step's path, and its step is the class `provide_external_input` loads |
| Jobs.LoadOrder | django_wfe/models.py:190-191 | `_run_next` imports the step class before the workflow class: a missing current step raises `AttributeError` first, then a failed step import, then a failed workflow import; with both imported the frame is built unless the step member is not a step class |
| Jobs.WorkflowTransition | django_wfe/models.py:321-358 | `_workflow_transition` finishes exactly at a step with no successors. Otherwise it raises `TypeError` for an index that is neither an `int` nor a `bool` and `IndexError` for one out of range, and follows a negative index from the end. A target with no `Step` record raises `DoesNotExist`; anything else moves to the target and adds 1 to the step number |
| Jobs.RunStep | django_wfe/models.py:184-245 | one pass of `_run_next`. It pauses exactly at an input-taking step whose input has not arrived, changing only the state. It raises on a class that does not load, leaving the job unchanged; a raise after loading leaves it `ONGOING`. Moving on adds exactly 1 to the step number. Earlier log entries are never rewritten. From an aligned log, a step that got past `execute` leaves its result where the next step reads it |
| Jobs.RunFrame | django_wfe/models.py:198-213 | the phases after initialise never pause. An exception there leaves the job in `ONGOING` with its step unchanged, and only the current step's log entry may change. From an aligned log, a step that finishes or moves on leaves exactly one entry per step taken, and the next step can read its result |
| Jobs.StepRuns | django_wfe/models.py:205-211 | a step that loads, is not held at the gate, and whose `execute` and `transition` both return, records its result and hands the index to `_workflow_transition` |
| Jobs.RunNext | django_wfe/models.py:184-215 | the recursion ends paused in `INPUT_REQUIRED`, finished in `FINISHED`, or with an exception; never while moving. It keeps the workflow and never decreases the step number |
| Jobs.MovesOn | django_wfe/models.py:210-215 | after a step that moved on, `_run_next` continues with the next job one recursion level down |
| Jobs.FollowsPath | django_wfe/models.py:184-215 | when every job along a sequence moves to the next and the last one settles, `_run_next` from the first ends as the last one did, given one recursion level per step |
| Jobs.RunsOutOfDepth | django_wfe/models.py:215 | with only as many recursion levels as moves, the run is cut off by `RecursionError` at the job the last level reached |
| Jobs.RunNextLog | django_wfe/models.py:278-284 | over a whole run the log only grows, and no entry of a step already passed is rewritten |
| Jobs.RunNextAligned | django_wfe/models.py:198-215 | a log with one entry per step passed (plus at most one for the current step) stays so over a whole run; a finished run has a result for its last step |
| Jobs.RunNextResults | django_wfe/models.py:278-284 | from an aligned log, every step passed during a run has its result recorded |
| Jobs.ResumedMovesOn | django_wfe/models.py:228-242 | a job resumed in `INPUT_RECEIVED` never pauses again at the same step; a pause happens only at a later one |
| Jobs.Execute | django_wfe/models.py:138-149 | an exception of the run never gets out of `execute` (logging and the job's own save are taken not to fail); the handler's own `save` raises `MultipleObjectsReturned` exactly when the job had no current step and several `__start__` records exist. Otherwise the job ends `FAILED` exactly when the run raised and `FINISHED` exactly when it completed, and it waits for input in every other case. It keeps the workflow, never moves backwards, rewrites no passed log entry, and keeps the log aligned. A job without a current step comes out as that `save` leaves it |
| Jobs.FailedJobGetsStart | django_wfe/models.py:103-149 | a job without a current step fails in `execute`, and the handler's `save` gives it the single `__start__` record; the next `execute` then runs from `__start__`, exactly as it would for the same job had it not failed |
| Jobs.TraversalIgnoresState | django_wfe/models.py:184-245 | a run from a job not in `INPUT_RECEIVED` does not depend on its state, up to the state left on a job that raised |
| Jobs.ExecuteIgnoresState | django_wfe/models.py:138-149 | `execute` on a finished or failed job does what it does on a pending one; there is no terminal-state guard |
| Jobs.ProvideExternalInput | django_wfe/models.py:151-182 | it raises `WrongState` for a step without input fields, and then `WrongState` for a job not in `INPUT_REQUIRED`. An invalid payload raises `ValidationError` before any change. A valid one gives exactly the job whose log has the validated payload written as step `n`'s `external_data` and whose state is `INPUT_RECEIVED`; step `n` then reads that payload as its external input when the log has at least `n` entries |
| Jobs.GatesAgree | django_wfe/steps.py:54-60 | `requires_input` is the one gate of both paths: `provide_external_input` refuses a step's input exactly when the step declares no input field, and `_run_next` pauses exactly at a step that declares one in a job not in `INPUT_RECEIVED` |
| Jobs.InputUnblocksStep | django_wfe/models.py:181 | once input has been accepted, the next pass does not pause at the gate |
| Jobs.InputAcceptedOnce | django_wfe/models.py:165-166 | input cannot be provided twice: the second attempt raises `WrongState` |
| Jobs.SaveDefaults | django_wfe/models.py:103-120 | saving a job without a current step gives it the single step record named `__start__`. With none the job is unchanged, and with several `get` raises. Nothing else changes |
| Jobs.NewJob | django_wfe/models.py:90-120 | a newly ordered job is `PENDING` at step 0 with an empty log, at `__start__` when exactly one such record exists |
| Reconciler.InsertIfAbsent | django_wfe/utils.py:79-89 | get-or-insert: an existing record stays as it was, a missing one is added with the class name unless its save fails, and no other record appears |
| Reconciler.SyncSteps | django_wfe/utils.py:91-102 | the step loop keeps every existing record. It adds exactly the missing records of the workflow's step classes whose save does not fail |
| Reconciler.SyncMember | django_wfe/utils.py:75-102 | a workflow member adds its own record and those of its step classes when missing; other members change nothing |
| Reconciler.Sync | django_wfe/utils.py:69-102 | over all members, existing records are kept and the new ones are exactly the missing records the workflow members call for, minus failed saves |
| Reconciler.UpdateWdkModels | django_wfe/utils.py:52-102 | no configured module leaves the registry unchanged, and a module that cannot be imported raises before any change; otherwise as `Sync` |
| Reconciler.Idempotent | django_wfe/utils.py:75-102 | a second run over unchanged definitions changes nothing |
| Reconciler.WorkflowMembers | django_wfe/utils.py:69-73 | the members selected for reconciliation are exactly the module's workflow classes |
| Reconciler.WorkflowMembersConcat | django_wfe/utils.py:69-73 | the selection distributes over concatenation, so the selected classes keep the module's order |
| Reconciler.AllWorkflowsKept | django_wfe/utils.py:69-73 | a module whose members are all workflow classes is selected whole and in order |
| Reconciler.OnlyWorkflowClassesCount | django_wfe/utils.py:69-75 | reconciling all members gives the same registry as reconciling only the workflow classes |
| Watchdog.Load | django_wfe/models.py:44-47 | `Singleton.load` returns row 1, creating it with `running = False` when missing and leaving an existing table untouched |
| Watchdog.Save | django_wfe/models.py:49-51 | `Singleton.save` writes row 1 whatever the object's key was, and only row 1 |
| Watchdog.SetWatchdogOn | django_wfe/utils.py:13-37 | the scheduler starts exactly when the table exists and the flag is not set. Afterwards the flag is set and no other row changes. A missing table changes nothing |
| Watchdog.DeregisterWatchdog | django_wfe/utils.py:40-49 | deregistering clears the flag and no other row changes; a missing table raises |
| Watchdog.StartsOnce | django_wfe/utils.py:27-37 | starting twice starts the scheduler once; after deregistering, the next start starts it again |
| Scenarios.StartReturnsNone | django_wfe/steps.py:95-99 | `__start__` takes no input, returns `None` and continues on edge 0 |
| Scenarios.EmptyReturnsNone | django_wfe/tests/wdk_models.py:6-23 | the test module's empty steps take no input, return `None` and continue on edge 0 |
| Scenarios.ErrorStepRaises | django_wfe/tests/wdk_models.py:40-42 | `ErrorStep` takes no input and its `execute` always raises |
| Scenarios.IntField | django_wfe/tests/wdk_models.py:32-33 | pydantic's `int` field: an `int` as it is, a `bool` as 0 or 1, a float truncated toward zero, a string exactly when it is a signed or unsigned decimal numeral, as its value; `None`, lists and dicts are refused |
| Scenarios.CoercesLikePydantic | django_wfe/tests/wdk_models.py:31-33 | `"1"`, `1.0` and `True` all validate to `{"external_int": 1}`, `"-12"` to `-12`, while `"1.5"` and `{}` are refused |
| Scenarios.ExternalInputReads | django_wfe/tests/wdk_models.py:31-37 | `ExternalInputStep` takes input; it keeps an integer `external_int` as it is and refuses a payload without `external_int` or with `None`, a list or a dict there; it returns `external_int` and continues on edge 0 |
| Scenarios.EmptyRun | django_wfe/tests/test_job.py:121-143 | `TestWorkflowEmpty` finishes at step 0 with the start step's `None` result logged |
| Scenarios.SuccessWorkflow | django_wfe/tests/test_job.py:145-170 | `TestWorkflowSuccess` finishes at step 3, the last step, with a `None` result logged for each of the four steps |
| Scenarios.ErrorWorkflow | django_wfe/tests/test_job.py:173-198 | `TestWorkflowError` fails at step 2, the raising step, with nothing logged for that step |
| Scenarios.InputWorkflow | django_wfe/tests/test_job.py:201-226 | `TestWorkflowExternalInput` stops at step 2 in `INPUT_REQUIRED`, with nothing logged for that step |
| Scenarios.InputProvided | django_wfe/tests/test_job.py:229-264 | the waiting job accepts `{"external_int": 1}`: a new entry 2 holds it and the job is `INPUT_RECEIVED` |
| Scenarios.InputRejected | django_wfe/tests/test_job.py:267-304 | `{"external_int": {}}` is refused with `ValidationError`, so no updated job comes out of the call |
| Scenarios.ResumeWorkflow | django_wfe/tests/test_job.py:307-352 | resuming after the input finishes at step 3, and entry 2 holds the `1` that `ExternalInputStep` returned |
| Scenarios.DecisionWorkflow | django_wfe/tests/wdk_models.py:76-83 | `TestWorkflowDecision`: whichever of 0 and 1 `RandomIntStep` draws, the `Decision` follows that edge, and the job finishes at step 4 with the drawn integer logged for `RandomIntStep` and the chosen branch, not the other, logged at position 3 |
| Scenarios.InputJourney | django_wfe/tests/test_job.py:201-352 | the whole journey: the run holds for input, the input is accepted, and the next run finishes at step 3 with the input's value as step 2's result |

## Left out

- Logging, the `Tee` redirection of stdout and stderr, tracebacks, timestamps
  and the log file name: these are I/O only. `_log` is a no-op here.
- Django ORM persistence: `save`, `objects.get`, `refresh_from_db` and
  `JSONField`. A job is a value, and each table is a map. A failing record
  save in the reconciler is a set of failing paths. Within `execute`,
  logging and the job's own save are taken not to fail, so no I/O or
  database error escapes its handler.
- Deleting `Step` and `Workflow` records through the admin, which allows it,
  and the `CASCADE` deletion of their jobs: the registry here only grows.
- `importlib.import_module` and `importlib.reload`: a module is its ordered
  list of members, given as a parameter. Reloading does not change that list.
- Pydantic: a schema is its set of field names plus an abstract validation
  function that returns the validated payload or nothing. `__fields__` is
  the field set.
- The Dramatiq task queue, APScheduler and `atexit` (`tasks.py`,
  `app_utils.py`, and the scheduler calls in `utils.py`): `Watchdog.SetWatchdogOn`
  only reports whether the scheduler would be started.
- Views, serializers, URLs, admin, system checks, the management command,
  settings and packaging: these are interface and configuration.
- `Jobs.RunNext`: Python's recursion limit is an explicit `depth`. The model
  does not fix its value, and it does not count the frames that Django and the
  caller use. The cut-off is placed at a level boundary, on the job as the
  previous level left it; in Python `RecursionError` can also come from a
  call inside the deepest level, such as its `save` or the result write,
  leaving the job partly updated.
- Step code is taken not to mutate its arguments or `self.job`. In Python,
  `execute` and `transition` receive live references to log entries (the
  previous result, the external data, the just-stored result) and to the
  job, so they could rewrite earlier entries or the job's state and step
  number. The frame properties of `Jobs.RunStep`, `Jobs.RunNextLog` and
  `Jobs.Execute` (earlier entries are never rewritten) depend on this.
- `Jobs.ProvideExternalInput`: the stored `external_data` is the validated
  payload itself; pydantic's `.dict()` conversion is assumed to be the identity.
- `Jobs.SaveDefaults`: `Step.objects.get(name="__start__")` is modelled as a
  lookup of the records named `__start__`; the `print` warning when there is
  none is left out.
- The `step` field of a log entry holds the step's path, as the engine writes
  it. The job tests hand-build entries that hold step names. That field is
  never read, so this makes no difference.
- `Scenarios.IntField`: Python's `int()` also accepts surrounding whitespace,
  `_` between digits and non-ASCII digits in a string; such strings are
  refused here. A float is its exact real value, so NaN, the infinities and
  binary rounding do not arise.
- `randint`: `RandomIntStep`'s draw is the parameter `coin`, and
  `Scenarios.DecisionWorkflow` holds for both values it can take.
- A workflow graph or a module member list with a repeated key has no
  Python counterpart: a dict literal keeps the last value of a repeated key,
  and a module's `__dict__` holds each name once. The model's association
  lists allow repeats and read the first entry (`Workflows.Successors`,
  `Loader.Getattr`); the scenario graphs have distinct keys.
- Concurrency between the reconciler and running jobs: the model is
  sequential.

=== FILE: execution_log.dfy ===
/** A job's `storage["data"]`: one entry per visited step, in visiting order.
    An entry always names its step; its `result` and `external_data` keys may
    be missing (`None` here), which is different from holding Python `None`
    (`Some(VNull)`). */
module ExecutionLog {
  import opened Values

  datatype Entry = Entry(step: string, result: Option<Value>, externalData: Option<Value>)

  type Log = seq<Entry>

  /** The external input handed to the step at position `n`: the entry's
      `external_data`, or `None` when the entry or the key is missing. */
  function ExternalInputAt(log: Log, n: nat): (r: Value)
    // `IndexError` and `KeyError` both fall back to `None`
    ensures n >= |log| ==> r == VNull
    ensures n < |log| && log[n].externalData.None? ==> r == VNull
    ensures n < |log| && log[n].externalData.Some? ==> r == log[n].externalData.value
  {
    if n < |log| && log[n].externalData.Some? then log[n].externalData.value else VNull
  }

  /** The input of the step at position `n`: `data[n - 1]["result"]` when the
      log is non-empty, else `None`. At `n == 0` Python reads `data[-1]`, the
      last entry; past the end it raises `IndexError`, and an entry without a
      result raises `KeyError`. */
  function PreviousInput(log: Log, n: nat): (r: Result<Value>)
    ensures |log| == 0 ==> r == Ok(VNull)
    ensures 0 < n <= |log| ==> r == (if log[n - 1].result.Some? then Ok(log[n - 1].result.value) else Err(KeyError))
    ensures n == 0 < |log| ==> r == (if log[|log| - 1].result.Some? then Ok(log[|log| - 1].result.value) else Err(KeyError))
    ensures 0 < |log| < n ==> r == Err(IndexError)
  {
    if |log| == 0 then Ok(VNull)
    else
      match PyIndex(log, n - 1)
      case None => Err(IndexError)
      case Some(e) => if e.result.Some? then Ok(e.result.value) else Err(KeyError)
  }

  /** Records the result of the step at position `n`: overwrite the `result`
      of entry `n` if it exists, otherwise append a new entry (which lands at
      position `|log|`, not necessarily `n`). */
  function WriteResult(log: Log, n: nat, path: string, v: Value): (r: Log)
    ensures |r| == if n < |log| then |log| else |log| + 1
    ensures forall i | 0 <= i < |log| && i != n :: r[i] == log[i]
    ensures n < |log| ==> r[n].result == Some(v) && r[n].step == log[n].step && r[n].externalData == log[n].externalData
    ensures |log| <= n ==> r[|log|] == Entry(path, Some(v), None)
    // When the log is aligned with the step number the result sits at `n`,
    // the next step reads it as its input, and the external input survives.
    ensures |log| == n || |log| == n + 1 ==>
              && |r| == n + 1
              && PreviousInput(r, n + 1) == Ok(v)
              && ExternalInputAt(r, n) == ExternalInputAt(log, n)
  {
    if n < |log| then log[n := log[n].(result := Some(v))]
    else log + [Entry(path, Some(v), None)]
  }

  /** Records validated external input for the step at position `n`: set the
      `external_data` of entry `n` if it exists, otherwise append a new entry. */
  function WriteExternal(log: Log, n: nat, path: string, v: Value): (r: Log)
    ensures |r| == if n < |log| then |log| else |log| + 1
    ensures forall i | 0 <= i < |log| && i != n :: r[i] == log[i]
    ensures n < |log| ==> r[n].externalData == Some(v) && r[n].step == log[n].step && r[n].result == log[n].result
    ensures |log| <= n ==> r[|log|] == Entry(path, None, Some(v))
    // The step at `n` sees the payload only if the entry landed at `n`.
    ensures |log| >= n ==> ExternalInputAt(r, n) == v
    ensures |log| < n ==> ExternalInputAt(r, n) == VNull
  {
    if n < |log| then log[n := log[n].(externalData := Some(v))]
    else log + [Entry(path, None, Some(v))]
  }
}

=== FILE: jobs.dfy ===
/** The job state machine (`Job` in models.py): one traversal step at a time,
    the log as its only memory, pausing for external input, finishing at a
    terminal step and failing on any exception. Persistence (`save`) is the
    identity on a job value; logging is a no-op. */
module Jobs {
  import opened Values
  import opened Paths
  import opened ExecutionLog
  import opened Steps
  import opened Workflows
  import opened Loader

  datatype JobState = Pending | Ongoing | InputRequired | InputReceived | Failed | Finished

  /** A `Job` record: the path of its workflow, the path of its current step
      (a nullable foreign key), the position of that step in the traversal,
      the log `storage["data"]`, and the lifecycle state. */
  datatype Job = Job(workflow: string, currentStep: Option<string>, stepNumber: nat, data: Log, state: JobState)

  /** What the engine reads: the loaded code and the `Step` table, which maps
      a step path to its record's name. */
  datatype Env = Env(modules: Modules, stepTable: map<string, string>)

  /** Everything `_run_next` resolves before it initialises the step. */
  datatype Frame = Frame(path: string, key: ClassRef, step: StepDef, workflow: Definition)

  /** How one `_run_next` call ends: paused for input, workflow finished,
      an exception, or moved on to the next step (recursing). */
  datatype Outcome =
    | Paused(job: Job)
    | Completed(job: Job)
    | Raised(job: Job, error: Error)
    | Moved(job: Job)

  /** The log has one entry per step before the current one, and possibly one
      for the current step (holding its external input or an earlier result). */
  predicate Aligned(job: Job)
  {
    |job.data| == job.stepNumber || |job.data| == job.stepNumber + 1
  }

  /** `self.import_class(self.current_step.path)`, used as a step class.
      The contract unfolds the definition case by case; what it adds is
      carried by `ImportClass`'s own contract. */
  function CurrentStepClass(env: Env, job: Job): (r: Result<StepDef>)
    ensures job.currentStep.None? ==> r == Err(AttributeError)
    ensures r.Ok? ==> job.currentStep.Some? && ImportClass(env.modules, job.currentStep.value).Ok?
    ensures job.currentStep.Some? && ImportClass(env.modules, job.currentStep.value).Err? ==>
              r == Err(ImportClass(env.modules, job.currentStep.value).error)
    ensures job.currentStep.Some? && ImportClass(env.modules, job.currentStep.value).Ok? ==>
              var c := ImportClass(env.modules, job.currentStep.value).value.1;
              if c.StepClass? then r == Ok(c.step) else r == Err(NotAStepClass)
  {
    if job.currentStep.None? then Err(AttributeError)
    else
      match ImportClass(env.modules, job.currentStep.value)
      case Err(e) => Err(e)
      case Ok(c) => if c.1.StepClass? then Ok(c.1.step) else Err(NotAStepClass)
  }

  /** The step class and the workflow class of the job, imported in the order
      `_run_next` imports them, then the step instantiated. */
  function LoadFrame(env: Env, job: Job): (r: Result<Frame>)
    ensures r.Ok? ==> job.currentStep == Some(r.value.path) && PathOf(r.value.key) == r.value.path
    ensures r.Ok? ==> CurrentStepClass(env, job) == Ok(r.value.step)
  {
    if job.currentStep.None? then Err(AttributeError)
    else
      match ImportClass(env.modules, job.currentStep.value)
      case Err(e) => Err(e)
      case Ok(stepClass) =>
        match ImportClass(env.modules, job.workflow)
        case Err(e) => Err(e)
        case Ok(workflowClass) =>
          if stepClass.1.StepClass? then
            Ok(Frame(job.currentStep.value, stepClass.0, stepClass.1.step, workflowClass.1))
          else Err(NotAStepClass)
  }

  /** `_run_next` imports the step class before the workflow class: the
      first import that fails decides the exception, and a frame holds
      exactly what the two imports returned. This unfolds `LoadFrame`'s
      definition; it states no property beyond it. */
  lemma LoadOrder(env: Env, job: Job)
    ensures job.currentStep.None? ==> LoadFrame(env, job) == Err(AttributeError)
    ensures job.currentStep.Some? && ImportClass(env.modules, job.currentStep.value).Err? ==>
              LoadFrame(env, job) == Err(ImportClass(env.modules, job.currentStep.value).error)
    ensures job.currentStep.Some? && ImportClass(env.modules, job.currentStep.value).Ok?
            && ImportClass(env.modules, job.workflow).Err? ==>
              LoadFrame(env, job) == Err(ImportClass(env.modules, job.workflow).error)
    ensures job.currentStep.Some? && ImportClass(env.modules, job.currentStep.value).Ok?
            && ImportClass(env.modules, job.workflow).Ok? ==>
              var c, w := ImportClass(env.modules, job.currentStep.value).value, ImportClass(env.modules, job.workflow).value;
              if c.1.StepClass? then LoadFrame(env, job) == Ok(Frame(job.currentStep.value, c.0, c.1.step, w.1))
              else LoadFrame(env, job) == Err(NotAStepClass)
  {
  }

  /** A step with no entry in the graph, or an empty successor list, ends the workflow. */
  predicate Terminal(g: Digraph, key: ClassRef)
  {
    Successors(g, key).None? || |Successors(g, key).value| == 0
  }

  /** `_workflow_transition`: finish at a terminal step, otherwise follow
      edge `t` (a Python index: an `int` or a `bool`, with negative values
      counting from the end),
      look up the next step's record and advance the step number. */
  function WorkflowTransition(env: Env, f: Frame, t: Value, job: Job): (r: Outcome)
    ensures !r.Paused?
    ensures r.Raised? ==> r.job == job
    ensures r.Completed? ==> r.job == job.(state := Finished)
    ensures r.Moved? ==> && r.job == job.(currentStep := r.job.currentStep, stepNumber := job.stepNumber + 1)
                         && r.job.currentStep.Some? && r.job.currentStep.value in env.stepTable
    // `DIGRAPH` of something that is not a workflow class, or a `None` one
    ensures !f.workflow.WorkflowClass? || f.workflow.digraph.None? ==> r == Raised(job, AttributeError)
    ensures f.workflow.WorkflowClass? && f.workflow.digraph.Some? ==>
              (r.Completed? <==> Terminal(f.workflow.digraph.value, f.key))
    ensures f.workflow.WorkflowClass? && f.workflow.digraph.Some? && !Terminal(f.workflow.digraph.value, f.key) ==>
              var next := Successors(f.workflow.digraph.value, f.key).value;
              var k := IndexValue(t);
              && (k.None? ==> r == Raised(job, TypeError))
              && (k.Some? && (k.value >= |next| || k.value < -|next|) ==> r == Raised(job, IndexError))
              && (k.Some? && 0 <= k.value < |next| ==>
                    if PathOf(next[k.value]) in env.stepTable
                    then r.Moved? && r.job.currentStep == Some(PathOf(next[k.value]))
                    else r == Raised(job, DoesNotExist))
              && (k.Some? && -|next| <= k.value < 0 ==>
                    if PathOf(next[|next| + k.value]) in env.stepTable
                    then r.Moved? && r.job.currentStep == Some(PathOf(next[|next| + k.value]))
                    else r == Raised(job, DoesNotExist))
  {
    if !f.workflow.WorkflowClass? || f.workflow.digraph.None? then Raised(job, AttributeError)
    else
      match Successors(f.workflow.digraph.value, f.key)
      case None => Completed(job.(state := Finished))
      case Some(next) =>
        if |next| == 0 then Completed(job.(state := Finished))
        else
          match IndexValue(t)
          case None => Raised(job, TypeError)
          case Some(k) =>
            match PyIndex(next, k)
            case None => Raised(job, IndexError)
            case Some(c) =>
              var path := PathOf(c);
              if path !in env.stepTable then Raised(job, DoesNotExist)
              else Moved(job.(currentStep := Some(path), stepNumber := job.stepNumber + 1))
  }

  /** One call of `_run_next` up to its recursive call: resolve, initialise
      (pausing when the step needs input it has not received), execute,
      record the result, compute the transition, then advance or finish. */
  function RunStep(env: Env, job: Job): (r: Outcome)
    // initialise pauses exactly at an input-gated step whose input has not arrived
    ensures r.Paused? <==> LoadFrame(env, job).Ok? && RequiresInput(LoadFrame(env, job).value.step)
                           && job.state != InputReceived
    ensures r.Paused? ==> r.job == job.(state := InputRequired)
    ensures LoadFrame(env, job).Err? ==> r == Raised(job, LoadFrame(env, job).error)
    ensures r.job.workflow == job.workflow
    ensures r.Moved? ==> && r.job.stepNumber == job.stepNumber + 1 && r.job.state == Ongoing
                         && r.job.currentStep.Some? && r.job.currentStep.value in env.stepTable
    ensures !r.Moved? ==> r.job.stepNumber == job.stepNumber && r.job.currentStep == job.currentStep
    ensures r.Completed? ==> r.job.state == Finished
    ensures r.Raised? ==> r.job.state == job.state || r.job.state == Ongoing
    ensures LoadFrame(env, job).Ok? && r.Raised? ==> r.job.state == Ongoing
    // the log only grows, and only the current step's entry may change
    ensures |r.job.data| >= |job.data|
    ensures forall i | 0 <= i < |job.data| && i != job.stepNumber :: r.job.data[i] == job.data[i]
    ensures Aligned(job) ==> |r.job.data| == |job.data| || |r.job.data| == job.stepNumber + 1
    // a step that got past execute left its result where the next step reads it
    ensures Aligned(job) && (r.Moved? || r.Completed?) ==>
              |r.job.data| == job.stepNumber + 1 && PreviousInput(r.job.data, job.stepNumber + 1).Ok?
  {
    match LoadFrame(env, job)
    case Err(e) => Raised(job, e)
    case Ok(f) =>
      if RequiresInput(f.step) && job.state != InputReceived then
        Paused(job.(state := InputRequired))
      else
        RunFrame(env, f, job.(state := Ongoing))
  }

  /** The phases after initialise, on the job marked `ONGOING`: read the
      previous result, execute, record the result, compute the transition. */
  function RunFrame(env: Env, f: Frame, running: Job): (r: Outcome)
    ensures !r.Paused?
    ensures r.job.workflow == running.workflow
    ensures r.Moved? ==> && r.job.stepNumber == running.stepNumber + 1 && r.job.state == running.state
                         && r.job.currentStep.Some? && r.job.currentStep.value in env.stepTable
    ensures !r.Moved? ==> r.job.stepNumber == running.stepNumber && r.job.currentStep == running.currentStep
    ensures r.Completed? ==> r.job.state == Finished
    ensures r.Raised? ==> r.job.state == running.state
    ensures |r.job.data| >= |running.data|
    ensures forall i | 0 <= i < |running.data| && i != running.stepNumber :: r.job.data[i] == running.data[i]
    ensures Aligned(running) ==> |r.job.data| == |running.data| || |r.job.data| == running.stepNumber + 1
    ensures Aligned(running) && (r.Moved? || r.Completed?) ==>
              |r.job.data| == running.stepNumber + 1 && PreviousInput(r.job.data, running.stepNumber + 1).Ok?
  {
    var n := running.stepNumber;
    match PreviousInput(running.data, n)
    case Err(e) => Raised(running, e)
    case Ok(prev) =>
      match PerformExecute(f.step, running.data, n, prev)
      case Err(e) => Raised(running, e)
      case Ok(result) =>
        var written := running.(data := WriteResult(running.data, n, f.path, result));
        match PerformTransition(f.step, written.data, n, prev, result)
        case Err(e) => Raised(written, e)
        case Ok(t) => WorkflowTransition(env, f, t, written)
  }

  /** A step that resolves, is not held at the gate, and whose `execute` and
      `transition` both return, records its result and hands the
      transition index to `_workflow_transition`. */
  lemma StepRuns(env: Env, job: Job, f: Frame, prev: Value, result: Value, t: Value)
    requires LoadFrame(env, job) == Ok(f)
    requires !RequiresInput(f.step) || job.state == InputReceived
    requires PreviousInput(job.data, job.stepNumber) == Ok(prev)
    requires f.step.execute(prev, ExternalInputAt(job.data, job.stepNumber)) == Ok(result)
    requires f.step.transition(prev, ExternalInputAt(job.data, job.stepNumber), result) == Ok(t)
    ensures RunStep(env, job)
         == WorkflowTransition(env, f, t, job.(state := Ongoing, data := WriteResult(job.data, job.stepNumber, f.path, result)))
  {
    TransitionSeesExecuteInput(f.step, job.data, job.stepNumber, f.path, prev, result);
  }

  /** The recursion levels left one nested call further down. */
  function Below(depth: nat): (r: nat)
    requires depth > 0
    ensures r < depth && r + 1 == depth
  {
    depth - 1
  }

  /** `_run_next`: repeat `RunStep` until it pauses, finishes or raises.
      `depth` is how many more nested calls Python's recursion limit allows;
      running out raises `RecursionError`. */
  function RunNext(env: Env, job: Job, depth: nat): (r: Outcome)
    decreases depth
    ensures !r.Moved?
    ensures r.Paused? ==> r.job.state == InputRequired
    ensures r.Completed? ==> r.job.state == Finished
    ensures r.job.workflow == job.workflow
    ensures r.job.stepNumber >= job.stepNumber
    // without a current step the first `import_class` raises at once
    ensures job.currentStep.None? ==> r.Raised? && r.job == job
    ensures job.currentStep.Some? ==> r.job.currentStep.Some?
  {
    if depth == 0 then Raised(job, RecursionLimit)
    else
      match RunStep(env, job)
      case Moved(next) => RunNext(env, next, Below(depth))
      case other => other
  }

  /** A whole traversal never rewrites the log entry of a step already passed. */
  lemma {:induction false} RunNextLog(env: Env, job: Job, depth: nat)
    decreases depth
    ensures var r := RunNext(env, job, depth);
            && |r.job.data| >= |job.data|
            && forall i | 0 <= i < |job.data| && i < job.stepNumber :: r.job.data[i] == job.data[i]
  {
    if depth > 0 && RunStep(env, job).Moved? {
      var next, below := RunStep(env, job).job, Below(depth);
      RunNextLog(env, next, below);
      MovesOn(env, job, next, depth, below);
    }
  }

  /** An aligned log stays aligned through a traversal, and a finished
      workflow has a result for its last step. */
  lemma {:induction false} RunNextAligned(env: Env, job: Job, depth: nat)
    decreases depth
    ensures var r := RunNext(env, job, depth);
            Aligned(job) ==>
              && Aligned(r.job)
              && (r.Completed? ==> |r.job.data| == r.job.stepNumber + 1 && r.job.data[r.job.stepNumber].result.Some?)
  {
    if depth > 0 && RunStep(env, job).Moved? {
      var next, below := RunStep(env, job).job, Below(depth);
      RunNextAligned(env, next, below);
      MovesOn(env, job, next, depth, below);
    }
  }

  /** Along a traversal from an aligned log, every step passed leaves its result. */
  lemma {:induction false} RunNextResults(env: Env, job: Job, depth: nat)
    decreases depth
    ensures var r := RunNext(env, job, depth);
            Aligned(job) ==> Aligned(r.job) && forall i | job.stepNumber <= i < r.job.stepNumber :: r.job.data[i].result.Some?
  {
    RunNextAligned(env, job, depth);
    if depth > 0 && RunStep(env, job).Moved? && Aligned(job) {
      var next, below := RunStep(env, job).job, Below(depth);
      RunNextResults(env, next, below);
      MovesOn(env, job, next, depth, below);
      var r := RunNext(env, next, below);
      forall i | job.stepNumber <= i < r.job.stepNumber
        ensures r.job.data[i].result.Some?
      {
        if i == job.stepNumber {
          // the entry of the step just passed survives the rest of the traversal
          RunNextLog(env, next, below);
          assert r.job.data[i] == next.data[i];
        }
      }
    }
  }

  /** A job resumed with its input never pauses again at the same step. */
  lemma {:induction false} ResumedMovesOn(env: Env, job: Job, depth: nat)
    requires job.state == InputReceived
    decreases depth
    ensures RunNext(env, job, depth).Paused? ==> RunNext(env, job, depth).job.stepNumber > job.stepNumber
  {
    if depth > 0 && RunStep(env, job).Moved? {
      var next, below := RunStep(env, job).job, Below(depth);
      MovesOn(env, job, next, depth, below);
    }
  }

  /** From position `k` on, each job of `path` moves to the next one and
      the last one settles with `o`: the jobs a traversal passes through. */
  ghost predicate Traverses(env: Env, path: seq<Job>, k: nat, o: Outcome)
    requires k < |path|
    decreases |path| - k
  {
    if k == |path| - 1 then RunStep(env, path[k]) == o && !o.Moved?
    else RunStep(env, path[k]) == Moved(path[k + 1]) && Traverses(env, path, k + 1, o)
  }

  /** One level of `_run_next`: a job that moves hands the rest of the
      traversal, one recursion level down, to the job it moved to. This
      unfolds `RunNext`'s definition once, as glue for chaining steps. */
  lemma MovesOn(env: Env, job: Job, next: Job, depth: nat, below: nat)
    requires depth > 0 && below == Below(depth) && RunStep(env, job) == Moved(next)
    ensures RunNext(env, job, depth) == RunNext(env, next, below)
  {
  }

  /** `_run_next` follows a traversal to its end, provided the recursion
      limit leaves one level per step. */
  lemma {:induction false} FollowsPath(env: Env, path: seq<Job>, k: nat, o: Outcome, depth: nat)
    requires k < |path| && Traverses(env, path, k, o)
    requires depth >= |path| - k
    ensures RunNext(env, path[k], depth) == o
    decreases |path| - k
  {
    if k < |path| - 1 {
      var k', below := k + 1, Below(depth);
      FollowsPath(env, path, k', o, below);
      MovesOn(env, path[k], path[k'], depth, below);
    }
  }

  /** Each job of `path` from position `k` up to `last` moves to the next one. */
  ghost predicate MovesAlong(env: Env, path: seq<Job>, k: nat, last: nat)
    requires k <= last < |path|
  {
    forall m | k <= m < last :: RunStep(env, path[m]) == Moved(path[m + 1])
  }

  /** With only as many recursion levels as moves, the traversal is cut off
      by `RecursionError` at the job the last level reached, `path[last]`. */
  lemma {:induction false} RunsOutOfDepth(env: Env, path: seq<Job>, k: nat, depth: nat, last: nat)
    requires last == k + depth && last < |path| && MovesAlong(env, path, k, last)
    ensures RunNext(env, path[k], depth) == Raised(path[last], RecursionLimit)
    decreases depth
  {
    if depth > 0 {
      var k', below := k + 1, Below(depth);
      RunsOutOfDepth(env, path, k', below, last);
      MovesOn(env, path[k], path[k'], depth, below);
    }
  }

  predicate Settled(s: JobState)
  {
    s == Finished || s == Failed || s == InputRequired
  }

  /** `Job.execute`: run the traversal and turn any exception into `FAILED`.
      The handler saves the job, and `save` gives a job without a current step
      the `__start__` step; that lookup is the one exception that escapes. */
  ghost function Execute(env: Env, job: Job, depth: nat): (r: Result<Job>)
    ensures r.Err? <==> RunNext(env, job, depth).Raised? && job.currentStep.None? && |StartPaths(env.stepTable)| > 1
    ensures r.Err? ==> r.error == MultipleObjectsReturned
    ensures r.Ok? ==> && Settled(r.value.state)
                      && (r.value.state == Failed <==> RunNext(env, job, depth).Raised?)
                      && (r.value.state == Finished <==> RunNext(env, job, depth).Completed?)
    ensures r.Ok? ==> r.value.workflow == job.workflow && r.value.stepNumber >= job.stepNumber
    ensures r.Ok? ==> && |r.value.data| >= |job.data|
                      && forall i | 0 <= i < |job.data| && i < job.stepNumber :: r.value.data[i] == job.data[i]
    ensures r.Ok? && Aligned(job) ==> Aligned(r.value)
    // a job with a current step keeps one; a job without one fails at once,
    // and the handler's save is all that happens to it
    ensures job.currentStep.Some? ==> r.Ok? && r.value.currentStep.Some?
    ensures job.currentStep.None? ==> r == SaveDefaults(job.(state := Failed), env.stepTable)
  {
    var o := RunNext(env, job, depth);
    RunNextLog(env, job, depth);
    RunNextAligned(env, job, depth);
    assert o.Raised? || o.Paused? || o.Completed?;
    if o.Raised? then SaveDefaults(o.job.(state := Failed), env.stepTable)
    else Ok(o.job)
  }

  /** A job ordered before any `__start__` record existed fails on its first
      `execute`, but that failure's save gives it the start step, so the next
      `execute` runs the workflow as a job ordered at that step would. */
  lemma FailedJobGetsStart(env: Env, job: Job, p: string, depth: nat, depth': nat)
    requires job.currentStep.None? && job.state != InputReceived
    requires StartPaths(env.stepTable) == {p}
    ensures Execute(env, job, depth) == Ok(job.(state := Failed, currentStep := Some(p)))
    ensures Execute(env, job.(state := Failed, currentStep := Some(p)), depth')
         == Execute(env, job.(currentStep := Some(p)), depth')
  {
    ExecuteIgnoresState(env, job.(currentStep := Some(p)), Failed, depth');
    assert job.(currentStep := Some(p)).(state := Failed) == job.(state := Failed, currentStep := Some(p));
  }

  /** One step ignores the job's state, except that a class that does not
      load raises with the job as it was. */
  lemma StepIgnoresState(env: Env, job: Job, s: JobState)
    requires job.state != InputReceived && s != InputReceived
    ensures LoadFrame(env, job.(state := s)) == LoadFrame(env, job)
    ensures LoadFrame(env, job).Ok? ==> RunStep(env, job.(state := s)) == RunStep(env, job)
  {
    var other := job.(state := s);
    assert LoadFrame(env, other) == LoadFrame(env, job);
    // past the gate both run as `ONGOING`
    assert job.(state := Ongoing) == other.(state := Ongoing);
  }

  /** A traversal ignores the job's state, up to the state of the job an
      exception left behind. */
  lemma TraversalIgnoresState(env: Env, job: Job, s: JobState, depth: nat)
    requires job.state != InputReceived && s != InputReceived
    ensures var mine, other := RunNext(env, job, depth), RunNext(env, job.(state := s), depth);
            && (mine.Raised? <==> other.Raised?)
            && (mine.Raised? ==> mine.job.(state := Failed) == other.job.(state := Failed))
            && (!mine.Raised? ==> mine == other)
  {
    StepIgnoresState(env, job, s);
    if depth > 0 && RunStep(env, job).Moved? {
      var next, below := RunStep(env, job).job, Below(depth);
      MovesOn(env, job, next, depth, below);
      MovesOn(env, job.(state := s), next, depth, below);
    }
  }

  /** `execute` has no guard on the job's state: apart from the input gate,
      which looks for `INPUT_RECEIVED`, a finished or failed job runs again
      exactly as a pending one would. */
  lemma ExecuteIgnoresState(env: Env, job: Job, s: JobState, depth: nat)
    requires job.state != InputReceived && s != InputReceived
    ensures Execute(env, job.(state := s), depth) == Execute(env, job, depth)
  {
    TraversalIgnoresState(env, job, s, depth);
  }

  /** `Job.provide_external_input`: refuse unless the current step takes
      input and the job waits for it, validate the payload, then store it on
      the current entry and mark the input received. */
  function ProvideExternalInput(env: Env, job: Job, payload: map<string, Value>): (r: Result<Job>)
    ensures CurrentStepClass(env, job).Err? ==> r == Err(CurrentStepClass(env, job).error)
    // the two WrongState guards, the schema one checked first
    ensures CurrentStepClass(env, job).Ok? && !RequiresInput(CurrentStepClass(env, job).value) ==>
              r == Err(WrongState(NoInputAccepted))
    ensures (CurrentStepClass(env, job).Ok? && RequiresInput(CurrentStepClass(env, job).value)
             && job.state != InputRequired) ==> r == Err(WrongState(NotAwaitingInput))
    // validation happens before any change
    ensures (CurrentStepClass(env, job).Ok? && RequiresInput(CurrentStepClass(env, job).value)
             && job.state == InputRequired) ==>
              var validated := CurrentStepClass(env, job).value.schema.validate(payload);
              if validated.None? then r == Err(ValidationError)
              // the validated payload is patched onto entry `n`, or appended
              else && r == Ok(job.(data := WriteExternal(job.data, job.stepNumber, job.currentStep.value,
                                                         VDict(validated.value)),
                                   state := InputReceived))
                   && (|job.data| >= job.stepNumber ==>
                         ExternalInputAt(r.value.data, job.stepNumber) == VDict(validated.value))
    ensures r.Ok? ==> && r.value.state == InputReceived
                      && r.value.workflow == job.workflow
                      && r.value.currentStep == job.currentStep
                      && r.value.stepNumber == job.stepNumber
                      && |r.value.data| >= |job.data|
                      && forall i | 0 <= i < |job.data| && i != job.stepNumber :: r.value.data[i] == job.data[i]
    ensures r.Ok? ==> job.state == InputRequired
  {
    match CurrentStepClass(env, job)
    case Err(e) => Err(e)
    case Ok(d) =>
      if !RequiresInput(d) then Err(WrongState(NoInputAccepted))
      else if job.state != InputRequired then Err(WrongState(NotAwaitingInput))
      else
        match d.schema.validate(payload)
        case None => Err(ValidationError)
        case Some(v) =>
          Ok(job.(data := WriteExternal(job.data, job.stepNumber, job.currentStep.value, VDict(v)),
                  state := InputReceived))
  }

  /** `requires_input` decides both gates: `_run_next` holds a job exactly
      at a step that requires input, and `provide_external_input` refuses
      input exactly for a step that does not. */
  lemma GatesAgree(env: Env, job: Job, payload: map<string, Value>)
    requires CurrentStepClass(env, job).Ok?
    ensures ProvideExternalInput(env, job, payload) == Err(WrongState(NoInputAccepted))
            <==> !RequiresInput(CurrentStepClass(env, job).value)
    ensures LoadFrame(env, job).Ok? ==>
              (RunStep(env, job).Paused? <==> RequiresInput(CurrentStepClass(env, job).value) && job.state != InputReceived)
  {
  }

  /** A job that has received its input resumes: the gated step no longer pauses. */
  lemma InputUnblocksStep(env: Env, job: Job, payload: map<string, Value>)
    requires ProvideExternalInput(env, job, payload).Ok?
    ensures !RunStep(env, ProvideExternalInput(env, job, payload).value).Paused?
  {
  }

  /** Input cannot be supplied twice: once received, the gate refuses. */
  lemma InputAcceptedOnce(env: Env, job: Job, first: map<string, Value>, second: map<string, Value>)
    requires ProvideExternalInput(env, job, first).Ok?
    ensures ProvideExternalInput(env, ProvideExternalInput(env, job, first).value, second)
              == Err(WrongState(NotAwaitingInput))
  {
    var j := ProvideExternalInput(env, job, first).value;
    assert CurrentStepClass(env, j) == CurrentStepClass(env, job);
  }

  const StartName: string := "__start__"

  /** Paths of the step records named `__start__`. */
  ghost function StartPaths(stepTable: map<string, string>): set<string>
  {
    set p | p in stepTable && stepTable[p] == StartName
  }

  /** `Job.save`: a job without a current step gets the one step record named
      `__start__`; with no such record it stays without one (a warning is
      printed), and with several `get` raises. Nothing else changes. */
  ghost function SaveDefaults(job: Job, stepTable: map<string, string>): (r: Result<Job>)
    ensures job.currentStep.Some? ==> r == Ok(job)
    ensures r.Ok? ==> r.value.(currentStep := job.currentStep) == job
    ensures r.Ok? && job.currentStep.None? && r.value.currentStep.Some? ==>
              r.value.currentStep.value in stepTable && stepTable[r.value.currentStep.value] == StartName
    ensures job.currentStep.None? && StartPaths(stepTable) == {} ==> r == Ok(job)
    ensures job.currentStep.None? && |StartPaths(stepTable)| > 1 ==> r == Err(MultipleObjectsReturned)
    ensures job.currentStep.None? && |StartPaths(stepTable)| == 1 ==> r.Ok? && r.value.currentStep.Some?
  {
    if job.currentStep.Some? then Ok(job)
    else
      var starts := StartPaths(stepTable);
      if |starts| == 0 then Ok(job)
      else if |starts| > 1 then Err(MultipleObjectsReturned)
      else
        var p :| p in starts;
        Ok(job.(currentStep := Some(p)))
  }

  /** Ordering a job: a new record with the field defaults, then saved. */
  ghost function NewJob(workflow: string, stepTable: map<string, string>): (r: Result<Job>)
    ensures r.Ok? ==> && r.value.workflow == workflow && r.value.state == Pending
                      && r.value.stepNumber == 0 && r.value.data == []
    ensures forall p :: StartPaths(stepTable) == {p} ==> r == Ok(Job(workflow, Some(p), 0, [], Pending))
  {
    SaveDefaults(Job(workflow, None, 0, [], Pending), stepTable)
  }
}

=== FILE: loader.dfy ===
/** The loaded code: Python modules as ordered lists of named members, and
    `Job.import_class`, which resolves a dotted path to one of them. */
module Loader {
  import opened Values
  import opened Paths
  import opened Steps
  import opened Workflows

  /** What a module attribute can be, as far as the engine cares. */
  datatype Definition =
    | StepClass(step: StepDef)                // a `StepType` instance
    | WorkflowClass(digraph: Option<Digraph>) // a `WorkflowType` instance
    | OtherObject                             // anything else (functions, modules, ...)

  datatype Member = Member(name: string, value: Definition)

  /** A module's `__dict__.items()`, in definition order. */
  type Members = seq<Member>

  /** Importable modules by dotted module name. */
  type Modules = map<string, Members>

  /** `getattr(module, name)`. */
  function Getattr(members: Members, name: string): (r: Option<Definition>)
    ensures r.None? <==> forall i | 0 <= i < |members| :: members[i].name != name
    ensures r.Some? ==> exists i :: 0 <= i < |members| && members[i].name == name && members[i].value == r.value
  {
    if |members| == 0 then None
    else if members[0].name == name then Some(members[0].value)
    else
      var r := Getattr(members[1..], name);
      assert forall i | 0 < i < |members| :: members[i] == members[1..][i - 1];
      r
  }

  /** `Job.import_class(path)`: split off the class name with
      `rsplit(".", 1)`, import the module, then read the attribute. The class
      is returned together with its identity. */
  function ImportClass(modules: Modules, path: string): (r: Result<(ClassRef, Definition)>)
    ensures r.Ok? ==> PathOf(r.value.0) == path && '.' !in r.value.0.name
    ensures r.Ok? ==> r.value.0.modulePath in modules
                      && Getattr(modules[r.value.0.modulePath], r.value.0.name) == Some(r.value.1)
    ensures '.' !in path ==> r == Err(ValueError)
  {
    match Split(path)
    case None => Err(ValueError)
    case Some(parts) =>
      if parts.0 !in modules then Err(ModuleNotFound)
      else
        match Getattr(modules[parts.0], parts.1)
        case None => Err(AttributeError)
        case Some(d) => Ok((ClassRef(parts.0, parts.1), d))
  }

  /** Importing the stored path of a class gives back that class: the
      round trip between `__module__ + "." + __name__` and `rsplit`. */
  lemma ImportByPath(modules: Modules, c: ClassRef)
    requires '.' !in c.name
    ensures c.modulePath !in modules ==> ImportClass(modules, PathOf(c)) == Err(ModuleNotFound)
    ensures c.modulePath in modules && Getattr(modules[c.modulePath], c.name).None? ==>
              ImportClass(modules, PathOf(c)) == Err(AttributeError)
    ensures c.modulePath in modules && Getattr(modules[c.modulePath], c.name).Some? ==>
              ImportClass(modules, PathOf(c)) == Ok((c, Getattr(modules[c.modulePath], c.name).value))
  {
    SplitJoin(c.modulePath, c.name);
  }

  /** Module `c.modulePath` defines `c.name` as `d`, and the name is a plain
      identifier. */
  ghost predicate Defines(modules: Modules, c: ClassRef, d: Definition)
  {
    c.modulePath in modules && Getattr(modules[c.modulePath], c.name) == Some(d) && '.' !in c.name
  }

  /** A defined class imports by its path. */
  lemma ImportDefined(modules: Modules, c: ClassRef, d: Definition)
    requires Defines(modules, c, d)
    ensures ImportClass(modules, PathOf(c)) == Ok((c, d))
  {
    ImportByPath(modules, c);
  }
}

=== FILE: paths.dfy ===
/** Dotted Python paths: `module + "." + name` builds the path of a class and
    `path.rsplit(".", 1)` splits it back into module and class name. */
module Paths {
  import opened Values

  function Join(modulePath: string, name: string): string
  {
    modulePath + "." + name
  }

  /** Index of the last '.' in `s`, if any. */
  function LastDot(s: string): (r: Option<nat>)
    ensures r.Some? ==> r.value < |s| && s[r.value] == '.' && '.' !in s[r.value + 1..]
    ensures r.None? ==> '.' !in s
  {
    if |s| == 0 then None
    else if s[|s| - 1] == '.' then Some(|s| - 1)
    else
      var r := LastDot(s[..|s| - 1]);
      assert s == s[..|s| - 1] + [s[|s| - 1]];
      r
  }

  /** `path.rsplit(".", 1)` unpacked into two names; a path without a dot
      cannot be unpacked (`ValueError`, here `None`). The result is the unique
      split whose class name holds no dot. */
  function Split(path: string): (r: Option<(string, string)>)
    ensures r.None? <==> '.' !in path
    ensures r.Some? ==> Join(r.value.0, r.value.1) == path && '.' !in r.value.1
  {
    match LastDot(path)
    case None => None
    case Some(i) =>
      assert path == path[..i] + "." + path[i + 1..];
      Some((path[..i], path[i + 1..]))
  }

  lemma {:induction false} LastDotSkipsDotFree(s: string, t: string)
    requires '.' !in t
    ensures LastDot(s + t) == LastDot(s)
    decreases |t|
  {
    if |t| == 0 {
      assert s + t == s;
    } else {
      var u := s + t;
      assert u[|u| - 1] == t[|t| - 1];
      assert u[..|u| - 1] == s + t[..|t| - 1];
      LastDotSkipsDotFree(s, t[..|t| - 1]);
    }
  }

  /** Splitting a joined path gives back its parts, provided the class name
      holds no dot (which Python identifiers never do). */
  lemma {:induction false} SplitJoin(modulePath: string, name: string)
    requires '.' !in name
    ensures Split(Join(modulePath, name)) == Some((modulePath, name))
  {
    var p := Join(modulePath, name);
    LastDotSkipsDotFree(modulePath + ".", name);
    var q := modulePath + ".";
    assert q[|q| - 1] == '.';
    assert LastDot(q) == Some(|modulePath|);
    assert p[..|modulePath|] == modulePath;
    assert p[|modulePath| + 1..] == name;
  }
}

=== FILE: reconciler.dfy ===
/** `update_wdk_models`: keeps the `Workflow` and `Step` tables in step with
    the workflow classes of the configured module. Records are keyed by their
    unique path and only ever inserted when absent: nothing is deleted or
    renamed. A table is a map from path to record name. */
module Reconciler {
  import opened Values
  import opened Paths
  import opened Workflows
  import opened Loader

  datatype Registry = Registry(workflows: map<string, string>, steps: map<string, string>)

  /** Every record of `before` is still in `after`, under the same name. */
  ghost predicate Keeps(before: map<string, string>, after: map<string, string>)
  {
    forall p | p in before :: p in after && after[p] == before[p]
  }

  /** `objects.get(path=path)`, and on `DoesNotExist` a new record saved; a
      save that raises (its path is in `failing`) is reported and skipped. */
  function InsertIfAbsent(table: map<string, string>, path: string, name: string, failing: set<string>): (r: map<string, string>)
    ensures Keeps(table, r)
    ensures forall p | p in r && p != path :: p in table
    ensures path in r <==> path in table || path !in failing
    ensures path !in table && path !in failing ==> r[path] == name
  {
    if path in table || path in failing then table else table[path := name]
  }

  /** The `(path, name)` records the classes `refs` call for. */
  ghost function StepRecords(refs: seq<ClassRef>): set<(string, string)>
  {
    set i | 0 <= i < |refs| :: (PathOf(refs[i]), refs[i].name)
  }

  /** The inner loop over `_get_steps_classes()`. */
  function SyncSteps(table: map<string, string>, refs: seq<ClassRef>, failing: set<string>): (r: map<string, string>)
    ensures Keeps(table, r)
    ensures forall p | p in r && p !in table :: p !in failing && (p, r[p]) in StepRecords(refs)
    ensures forall rec | rec in StepRecords(refs) && rec.0 !in failing :: rec.0 in r
    decreases |refs|
  {
    if |refs| == 0 then table
    else
      var next := InsertIfAbsent(table, PathOf(refs[0]), refs[0].name, failing);
      var r := SyncSteps(next, refs[1..], failing);
      assert StepRecords(refs) == {(PathOf(refs[0]), refs[0].name)} + StepRecords(refs[1..]) by {
        forall rec | rec in StepRecords(refs)
          ensures rec in {(PathOf(refs[0]), refs[0].name)} + StepRecords(refs[1..])
        {
          var i :| 0 <= i < |refs| && rec == (PathOf(refs[i]), refs[i].name);
          if i > 0 {
            assert refs[1..][i - 1] == refs[i];
          }
        }
        forall rec | rec in StepRecords(refs[1..])
          ensures rec in StepRecords(refs)
        {
          var i :| 0 <= i < |refs[1..]| && rec == (PathOf(refs[1..][i]), refs[1..][i].name);
          assert refs[i + 1] == refs[1..][i];
        }
      }
      r
  }

  /** The `(path, name)` workflow records the module's members call for:
      one per `WorkflowType` member, under the configured module's path. */
  ghost function WorkflowRecords(config: string, members: Members): set<(string, string)>
  {
    if |members| == 0 then {}
    else
      (if members[0].value.WorkflowClass? then {(Join(config, members[0].name), members[0].name)} else {})
      + WorkflowRecords(config, members[1..])
  }

  /** The `(path, name)` step records the module's workflow classes call for. */
  ghost function MemberStepRecords(members: Members): set<(string, string)>
  {
    if |members| == 0 then {}
    else
      (if members[0].value.WorkflowClass? then StepRecords(StepsClasses(members[0].value.digraph)) else {})
      + MemberStepRecords(members[1..])
  }

  /** The records one member calls for, added when absent. */
  function SyncMember(reg: Registry, config: string, m: Member, failing: set<string>): (r: Registry)
    ensures Keeps(reg.workflows, r.workflows) && Keeps(reg.steps, r.steps)
    ensures forall p | p in r.workflows && p !in reg.workflows ::
              p !in failing && (p, r.workflows[p]) in WorkflowRecords(config, [m])
    ensures forall rec | rec in WorkflowRecords(config, [m]) && rec.0 !in failing :: rec.0 in r.workflows
    ensures forall p | p in r.steps && p !in reg.steps ::
              p !in failing && (p, r.steps[p]) in MemberStepRecords([m])
    ensures forall rec | rec in MemberStepRecords([m]) && rec.0 !in failing :: rec.0 in r.steps
  {
    assert [m][1..] == [];
    if m.value.WorkflowClass? then
      Registry(InsertIfAbsent(reg.workflows, Join(config, m.name), m.name, failing),
               SyncSteps(reg.steps, StepsClasses(m.value.digraph), failing))
    else reg
  }

  /** The loop over the module's members: for each workflow class, its own
      record, then the records of its step classes. */
  function Sync(reg: Registry, config: string, members: Members, failing: set<string>): (r: Registry)
    ensures Keeps(reg.workflows, r.workflows) && Keeps(reg.steps, r.steps)
    ensures forall p | p in r.workflows && p !in reg.workflows ::
              p !in failing && (p, r.workflows[p]) in WorkflowRecords(config, members)
    ensures forall rec | rec in WorkflowRecords(config, members) && rec.0 !in failing :: rec.0 in r.workflows
    ensures forall p | p in r.steps && p !in reg.steps ::
              p !in failing && (p, r.steps[p]) in MemberStepRecords(members)
    ensures forall rec | rec in MemberStepRecords(members) && rec.0 !in failing :: rec.0 in r.steps
    decreases |members|
  {
    if |members| == 0 then reg
    else
      var next := SyncMember(reg, config, members[0], failing);
      assert WorkflowRecords(config, members) == WorkflowRecords(config, [members[0]]) + WorkflowRecords(config, members[1..]);
      assert MemberStepRecords(members) == MemberStepRecords([members[0]]) + MemberStepRecords(members[1..]);
      Sync(next, config, members[1..], failing)
  }

  /** `update_wdk_models`: nothing to do without a configured module; an
      unimportable module raises before any record is touched. */
  function UpdateWdkModels(config: Option<string>, modules: Modules, reg: Registry, failing: set<string>): (r: Result<Registry>)
    ensures config.None? ==> r == Ok(reg)
    ensures config.Some? && config.value !in modules ==> r == Err(ModuleNotFound)
    ensures config.Some? && config.value in modules ==> r.Ok?
    ensures r.Ok? ==> Keeps(reg.workflows, r.value.workflows) && Keeps(reg.steps, r.value.steps)
    ensures r.Ok? && config.Some? ==>
              && (forall p | p in r.value.workflows && p !in reg.workflows ::
                    p !in failing && (p, r.value.workflows[p]) in WorkflowRecords(config.value, modules[config.value]))
              && (forall rec | rec in WorkflowRecords(config.value, modules[config.value]) && rec.0 !in failing ::
                    rec.0 in r.value.workflows)
              && (forall p | p in r.value.steps && p !in reg.steps ::
                    p !in failing && (p, r.value.steps[p]) in MemberStepRecords(modules[config.value]))
              && (forall rec | rec in MemberStepRecords(modules[config.value]) && rec.0 !in failing ::
                    rec.0 in r.value.steps)
  {
    match config
    case None => Ok(reg)
    case Some(c) =>
      if c !in modules then Err(ModuleNotFound)
      else Ok(Sync(reg, c, modules[c], failing))
  }

  /** A second run over unchanged definitions changes nothing. */
  lemma Idempotent(config: Option<string>, modules: Modules, reg: Registry, failing: set<string>)
    requires UpdateWdkModels(config, modules, reg, failing).Ok?
    ensures UpdateWdkModels(config, modules, UpdateWdkModels(config, modules, reg, failing).value, failing)
         == UpdateWdkModels(config, modules, reg, failing)
  {
    var r1 := UpdateWdkModels(config, modules, reg, failing).value;
    var r2 := UpdateWdkModels(config, modules, r1, failing).value;
    if config.Some? {
      var c := config.value;
      assert r2.workflows.Keys == r1.workflows.Keys by {
        forall p | p in r2.workflows
          ensures p in r1.workflows
        {
        }
      }
      assert r2.steps.Keys == r1.steps.Keys by {
        forall p | p in r2.steps
          ensures p in r1.steps
        {
        }
      }
      assert r2.workflows == r1.workflows;
      assert r2.steps == r1.steps;
    }
  }

  /** Only `WorkflowType` members of the module are reconciled: exactly
      those, in the module's order. */
  function WorkflowMembers(members: Members): (r: Members)
    ensures forall i | 0 <= i < |r| :: r[i].value.WorkflowClass?
    ensures forall m :: m in r <==> m in members && m.value.WorkflowClass?
    ensures |r| <= |members|
  {
    if |members| == 0 then []
    else if members[0].value.WorkflowClass? then [members[0]] + WorkflowMembers(members[1..])
    else WorkflowMembers(members[1..])
  }

  /** The selection keeps the module's order: selecting from two parts is
      selecting from each, one after the other. */
  lemma {:induction false} WorkflowMembersConcat(a: Members, b: Members)
    ensures WorkflowMembers(a + b) == WorkflowMembers(a) + WorkflowMembers(b)
    decreases |a|
  {
    if |a| == 0 {
      assert a + b == b;
    } else {
      assert (a + b)[0] == a[0] && (a + b)[1..] == a[1..] + b;
      WorkflowMembersConcat(a[1..], b);
    }
  }

  /** A module holding only workflow classes is reconciled member by member. */
  lemma {:induction false} AllWorkflowsKept(members: Members)
    requires forall i | 0 <= i < |members| :: members[i].value.WorkflowClass?
    ensures WorkflowMembers(members) == members
    decreases |members|
  {
    if |members| > 0 {
      AllWorkflowsKept(members[1..]);
      assert [members[0]] + members[1..] == members;
    }
  }

  lemma {:induction false} OnlyWorkflowClassesCount(reg: Registry, config: string, members: Members, failing: set<string>)
    ensures Sync(reg, config, members, failing) == Sync(reg, config, WorkflowMembers(members), failing)
    decreases |members|
  {
    if |members| > 0 {
      var m := members[0];
      OnlyWorkflowClassesCount(SyncMember(reg, config, m, failing), config, members[1..], failing);
      if m.value.WorkflowClass? {
        var w := WorkflowMembers(members);
        assert w[0] == m && w[1..] == WorkflowMembers(members[1..]);
      }
    }
  }
}

=== FILE: scenarios.dfy ===
/** The test workflows of django_wfe/tests/wdk_models.py as concrete values,
    and the runs the job tests expect of them. */
module Scenarios {
  import opened Values
  import opened Paths
  import opened ExecutionLog
  import opened Steps
  import opened Workflows
  import opened Loader
  import opened Jobs

  /** The value of a non-empty string of decimal digits. */
  function DigitsValue(s: string): (r: nat)
    requires forall i | 0 <= i < |s| :: '0' <= s[i] <= '9'
  {
    if |s| == 0 then 0
    else 10 * DigitsValue(s[..|s| - 1]) + (s[|s| - 1] as int - '0' as int)
  }

  predicate AllDigits(s: string)
  {
    |s| > 0 && forall i | 0 <= i < |s| :: '0' <= s[i] <= '9'
  }

  /** A decimal integer literal: an optional sign, then at least one digit. */
  predicate IsDecimal(s: string)
  {
    AllDigits(s) || (|s| > 0 && (s[0] == '+' || s[0] == '-') && AllDigits(s[1..]))
  }

  /** pydantic's validation of an `int` field, which returns an `int` as it
      is and otherwise tries `int(v)`: a `bool` gives 0 or 1, a float is
      truncated toward zero, a decimal string is parsed; `None`, lists, dicts
      and other strings fail. */
  function IntField(v: Value): (r: Option<int>)
    ensures v.VInt? ==> r == Some(v.i)
    ensures v == VBool(false) ==> r == Some(0)
    ensures v == VBool(true) ==> r == Some(1)
    ensures v.VFloat? && v.f >= 0.0 ==> r.Some? && r.value >= 0 && r.value as real <= v.f < r.value as real + 1.0
    ensures v.VFloat? && v.f < 0.0 ==> r.Some? && r.value <= 0 && r.value as real - 1.0 < v.f <= r.value as real
    ensures v.VStr? ==> (r.Some? <==> IsDecimal(v.s))
    ensures v.VStr? && AllDigits(v.s) ==> r == Some(DigitsValue(v.s))
    ensures v.VStr? && |v.s| > 0 && v.s[0] == '+' && AllDigits(v.s[1..]) ==> r == Some(DigitsValue(v.s[1..]))
    ensures v.VStr? && |v.s| > 0 && v.s[0] == '-' && AllDigits(v.s[1..]) ==> r == Some(0 - DigitsValue(v.s[1..]) as int)
    ensures v.VNull? || v.VList? || v.VDict? ==> r.None?
  {
    match v
    case VInt(i) => Some(i)
    case VBool(b) => Some(if b then 1 else 0)
    case VFloat(f) => Some(if f >= 0.0 then f.Floor else -((-f).Floor))
    case VStr(t) =>
      if AllDigits(t) then Some(DigitsValue(t))
      else if |t| > 0 && t[0] == '+' && AllDigits(t[1..]) then Some(DigitsValue(t[1..]))
      else if |t| > 0 && t[0] == '-' && AllDigits(t[1..]) then Some(0 - DigitsValue(t[1..]) as int)
      else None
    case _ => None
  }

  /** `ExternalInputStep.UserInputSchema`: one `int` field `external_int`;
      `.dict()` of the model holds that field alone, as an integer. */
  function ExternalIntSchema(): Schema
  {
    Schema({"external_int"},
           (p: map<string, Value>) =>
             if "external_int" in p && IntField(p["external_int"]).Some?
             then Some(map["external_int" := VInt(IntField(p["external_int"]).value)])
             else None)
  }

  /** The coercions pydantic applies to the payloads of
      `test_provide_external_input_success`'s kind: `"1"`, `1.0` and `True`
      are all stored as the integer 1, `"1.5"` and `{}` are refused. */
  lemma CoercesLikePydantic()
    ensures ExternalIntSchema().validate(map["external_int" := VStr("1")]) == Some(map["external_int" := VInt(1)])
    ensures ExternalIntSchema().validate(map["external_int" := VFloat(1.0)]) == Some(map["external_int" := VInt(1)])
    ensures ExternalIntSchema().validate(map["external_int" := VBool(true)]) == Some(map["external_int" := VInt(1)])
    ensures ExternalIntSchema().validate(map["external_int" := VStr("-12")]) == Some(map["external_int" := VInt(-12)])
    ensures ExternalIntSchema().validate(map["external_int" := VStr("1.5")]).None?
    ensures ExternalIntSchema().validate(map["external_int" := VDict(map[])]).None?
  {
    assert AllDigits("1") && DigitsValue("1") == 1;
    assert "12"[..1] == "1";
    assert AllDigits("12") && DigitsValue("12") == 12;
    assert "-12"[1..] == "12";
    assert !AllDigits("1.5") by { assert "1.5"[1] == '.'; }
  }

  /** An `execute` that returns `None`. */
  function EmptyExecute(): (Value, Value) -> Result<Value>
  {
    (prev, ext) => Ok(VNull)
  }

  /** `ExternalInputStep.execute`: `external_input["external_int"]`, which
      raises on a missing key or on `None`. */
  function ExternalIntExecute(): (Value, Value) -> Result<Value>
  {
    (prev: Value, ext: Value) =>
      if !ext.VDict? then Err(TypeError)
      else if "external_int" in ext.fields then Ok(ext.fields["external_int"])
      else Err(KeyError)
  }

  function EmptyStep(): StepDef
  {
    UserStep(BaseSchema(), EmptyExecute())
  }

  /** `RandomIntStep`: returns `coin`, the value `randint(0, 1)` produced. */
  function RandomIntStep(coin: int): StepDef
  {
    UserStep(BaseSchema(), (prev: Value, ext: Value) => Ok(VInt(coin)))
  }

  function ExternalInputStep(): StepDef
  {
    UserStep(ExternalIntSchema(), ExternalIntExecute())
  }

  /** `ErrorStep`: its `execute` raises. */
  function ErrorStep(): StepDef
  {
    UserStep(BaseSchema(), (prev: Value, ext: Value) => Err(StepException))
  }

  /** The test module's `Decision`: the transition is the previous step's result. */
  function DecisionStep(): StepDef
  {
    UserDecision(BaseSchema(), (prev: Value, ext: Value, res: Value) => Ok(prev))
  }

  /** `TestWorkflowSuccess`: `__start__ -> a -> b -> c`. */
  function SuccessGraph(start: ClassRef, a: ClassRef, b: ClassRef, c: ClassRef): Digraph
  {
    [Adjacency(start, [a]), Adjacency(a, [b]), Adjacency(b, [c])]
  }

  /** `TestWorkflowError`: `__start__ -> a -> e`. */
  function ErrorGraph(start: ClassRef, a: ClassRef, e: ClassRef): Digraph
  {
    [Adjacency(start, [a]), Adjacency(a, [e])]
  }

  /** `TestWorkflowExternalInput`: `__start__ -> a -> x -> b`. */
  function InputGraph(start: ClassRef, a: ClassRef, x: ClassRef, b: ClassRef): Digraph
  {
    [Adjacency(start, [a]), Adjacency(a, [x]), Adjacency(x, [b])]
  }

  /** `TestWorkflowEmpty`: `__start__` alone. */
  function EmptyGraph(start: ClassRef): Digraph
  {
    [Adjacency(start, [])]
  }

  /** The first entry for `key` is the one `DIGRAPH.get` finds. */
  lemma {:induction false} SuccessorsAt(g: Digraph, i: nat, key: ClassRef)
    requires i < |g| && g[i].node == key
    requires forall j | 0 <= j < i :: g[j].node != key
    ensures Successors(g, key) == Some(g[i].next)
    decreases i
  {
    if i > 0 {
      SuccessorsAt(g[1..], i - 1, key);
    }
  }

  /** A job as ordering it leaves it: at the start step, nothing logged. */
  function Ordered(wf: ClassRef, start: ClassRef): Job
  {
    Job(PathOf(wf), Some(PathOf(start)), 0, [], Pending)
  }

  /** `import_class` resolves both the job's step and its workflow. */
  lemma Loads(env: Env, job: Job, step: ClassRef, d: StepDef, wf: ClassRef, g: Digraph)
    requires job.currentStep == Some(PathOf(step)) && job.workflow == PathOf(wf)
    requires Defines(env.modules, step, StepClass(d)) && Defines(env.modules, wf, WorkflowClass(Some(g)))
    ensures LoadFrame(env, job) == Ok(Frame(PathOf(step), step, d, WorkflowClass(Some(g))))
  {
    ImportDefined(env.modules, step, StepClass(d));
    ImportDefined(env.modules, wf, WorkflowClass(Some(g)));
  }

  /** `_workflow_transition` follows edge `t` when it exists. */
  lemma Follows(env: Env, f: Frame, g: Digraph, t: int, next: ClassRef, job: Job)
    requires f.workflow == WorkflowClass(Some(g))
    requires Successors(g, f.key).Some? && PyIndex(Successors(g, f.key).value, t) == Some(next)
    requires PathOf(next) in env.stepTable
    ensures WorkflowTransition(env, f, VInt(t), job)
         == Moved(job.(currentStep := Some(PathOf(next)), stepNumber := job.stepNumber + 1))
  {
  }

  /** A step that runs and has no outgoing edge. */
  lemma Finishes(env: Env, job: Job, f: Frame, g: Digraph, prev: Value, result: Value, t: Value)
    requires LoadFrame(env, job) == Ok(f) && f.workflow == WorkflowClass(Some(g))
    requires !RequiresInput(f.step) || job.state == InputReceived
    requires PreviousInput(job.data, job.stepNumber) == Ok(prev)
    requires f.step.execute(prev, ExternalInputAt(job.data, job.stepNumber)) == Ok(result)
    requires f.step.transition(prev, ExternalInputAt(job.data, job.stepNumber), result) == Ok(t)
    requires Terminal(g, f.key)
    ensures RunStep(env, job)
         == Completed(job.(state := Finished, data := WriteResult(job.data, job.stepNumber, f.path, result)))
  {
    StepRuns(env, job, f, prev, result, t);
  }

  /** `_run_next` returns after a step that did not move on. */
  lemma Stops(env: Env, job: Job, o: Outcome, depth: nat)
    requires depth > 0 && RunStep(env, job) == o && !o.Moved?
    ensures RunNext(env, job, depth) == o
  {
  }

  /** `execute` after a traversal that ended in `o`. */
  lemma Executes(env: Env, job: Job, o: Outcome, depth: nat)
    requires RunNext(env, job, depth) == o && o.job.currentStep.Some?
    ensures Execute(env, job, depth) == Ok(if o.Raised? then o.job.(state := Failed) else o.job)
  {
  }

  /** `TestWorkflowEmpty`: the job finishes at step 0 with the start step's
      `None` result recorded. */
  lemma EmptyRun(env: Env, start: ClassRef, wf: ClassRef, depth: nat)
    requires Defines(env.modules, start, StepClass(StartStep()))
    requires Defines(env.modules, wf, WorkflowClass(Some(EmptyGraph(start))))
    requires depth >= 1
    ensures Execute(env, Ordered(wf, start), depth)
         == Ok(Ordered(wf, start).(state := Finished, data := [Entry(PathOf(start), Some(VNull), None)]))
  {
    var j0 := Ordered(wf, start);
    var o := Completed(j0.(state := Finished, data := [Entry(PathOf(start), Some(VNull), None)]));
    assert RunNext(env, j0, depth) == o by {
      Loads(env, j0, start, StartStep(), wf, EmptyGraph(start));
      Finishes(env, j0, Frame(PathOf(start), start, StartStep(), WorkflowClass(Some(EmptyGraph(start)))),
               EmptyGraph(start), VNull, VNull, VInt(0));
      Stops(env, j0, o, depth);
    }
    Executes(env, j0, o, depth);
  }

  /** A step that takes no input, returns `None` and continues on edge 0:
      `__start__` and the test module's empty steps. */
  ghost predicate ReturnsNone(d: StepDef)
  {
    && !RequiresInput(d)
    && (forall prev, ext :: d.execute(prev, ext) == Ok(VNull))
    && (forall prev, ext, res :: d.transition(prev, ext, res) == Ok(VInt(0)))
  }

  lemma StartReturnsNone()
    ensures ReturnsNone(StartStep())
  {
  }

  lemma EmptyReturnsNone()
    ensures ReturnsNone(EmptyStep())
  {
  }

  /** The log entry of a step that returned `None`. */
  function NoneEntry(step: ClassRef): Entry
  {
    Entry(PathOf(step), Some(VNull), None)
  }

  /** A step returning `None` with a single successor, reached with one log
      entry per earlier step, appends its result and moves to the successor. */
  lemma NoneMoves(env: Env, job: Job, step: ClassRef, d: StepDef, wf: ClassRef, g: Digraph, succ: ClassRef, next: Job)
    requires ReturnsNone(d)
    requires job.currentStep == Some(PathOf(step)) && job.workflow == PathOf(wf)
    requires Defines(env.modules, step, StepClass(d)) && Defines(env.modules, wf, WorkflowClass(Some(g)))
    requires |job.data| == job.stepNumber && PreviousInput(job.data, job.stepNumber).Ok?
    requires Successors(g, step) == Some([succ]) && PathOf(succ) in env.stepTable
    requires next == Job(job.workflow, Some(PathOf(succ)), job.stepNumber + 1,
                         job.data + [NoneEntry(step)], Ongoing)
    ensures RunStep(env, job) == Moved(next)
  {
    var prev := PreviousInput(job.data, job.stepNumber).value;
    var f := Frame(PathOf(step), step, d, WorkflowClass(Some(g)));
    Loads(env, job, step, d, wf, g);
    StepRuns(env, job, f, prev, VNull, VInt(0));
    Follows(env, f, g, 0, succ, job.(state := Ongoing, data := WriteResult(job.data, job.stepNumber, f.path, VNull)));
  }

  /** A step returning `None` without successors completes the run. */
  lemma NoneEnds(env: Env, job: Job, step: ClassRef, d: StepDef, wf: ClassRef, g: Digraph, o: Outcome)
    requires ReturnsNone(d)
    requires job.currentStep == Some(PathOf(step)) && job.workflow == PathOf(wf)
    requires Defines(env.modules, step, StepClass(d)) && Defines(env.modules, wf, WorkflowClass(Some(g)))
    requires |job.data| == job.stepNumber && PreviousInput(job.data, job.stepNumber).Ok?
    requires Terminal(g, step)
    requires o == Completed(job.(state := Finished, data := job.data + [NoneEntry(step)]))
    ensures RunStep(env, job) == o
  {
    var prev := PreviousInput(job.data, job.stepNumber).value;
    Loads(env, job, step, d, wf, g);
    Finishes(env, job, Frame(PathOf(step), step, d, WorkflowClass(Some(g))), g, prev, VNull, VInt(0));
  }

  /** The log after `__start__`, and after the step that follows it. */
  function AfterStart(start: ClassRef): Log
  {
    [NoneEntry(start)]
  }

  function AfterFirst(start: ClassRef, a: ClassRef): Log
  {
    AfterStart(start) + [NoneEntry(a)]
  }

  lemma AfterFirstLog(start: ClassRef, a: ClassRef)
    ensures AfterFirst(start, a) == [NoneEntry(start), NoneEntry(a)]
  {
  }

  /** The job that has just reached position 1, at step `a`. */
  function AtFirst(wf: ClassRef, start: ClassRef, a: ClassRef): Job
  {
    Job(PathOf(wf), Some(PathOf(a)), 1, AfterStart(start), Ongoing)
  }

  /** The job that has just reached position 2, at step `x`. */
  function AtSecond(wf: ClassRef, start: ClassRef, a: ClassRef, x: ClassRef): Job
  {
    Job(PathOf(wf), Some(PathOf(x)), 2, AfterFirst(start, a), Ongoing)
  }

  /** What every non-empty test workflow begins with: `__start__ -> a -> x`,
      where `__start__` (defined as `s`) and `a` (defined as `d`) return `None`. */
  ghost predicate PrefixLoaded(env: Env, wf: ClassRef, g: Digraph, start: ClassRef, a: ClassRef, x: ClassRef,
                               s: StepDef, d: StepDef)
  {
    && ReturnsNone(s) && ReturnsNone(d)
    && Defines(env.modules, start, StepClass(s)) && Defines(env.modules, a, StepClass(d))
    && Defines(env.modules, wf, WorkflowClass(Some(g)))
    && Successors(g, start) == Some([a]) && Successors(g, a) == Some([x])
    && PathOf(a) in env.stepTable && PathOf(x) in env.stepTable
  }

  /** The first two edges of a graph whose first two entries are
      `start: [a]` and `a: [x]`. */
  lemma FirstEdges(g: Digraph, start: ClassRef, a: ClassRef, x: ClassRef)
    requires |g| >= 2 && g[0] == Adjacency(start, [a]) && g[1] == Adjacency(a, [x]) && start != a
    ensures Successors(g, start) == Some([a]) && Successors(g, a) == Some([x])
  {
    SuccessorsAt(g, 0, start);
    SuccessorsAt(g, 1, a);
  }

  lemma PrefixStart(env: Env, wf: ClassRef, g: Digraph, start: ClassRef, a: ClassRef, x: ClassRef, s: StepDef, d: StepDef)
    requires PrefixLoaded(env, wf, g, start, a, x, s, d)
    ensures RunStep(env, Ordered(wf, start)) == Moved(AtFirst(wf, start, a))
  {
    assert [] + [NoneEntry(start)] == AfterStart(start);
    NoneMoves(env, Ordered(wf, start), start, s, wf, g, a, AtFirst(wf, start, a));
  }

  lemma PrefixFirst(env: Env, wf: ClassRef, g: Digraph, start: ClassRef, a: ClassRef, x: ClassRef, s: StepDef, d: StepDef)
    requires PrefixLoaded(env, wf, g, start, a, x, s, d)
    ensures RunStep(env, AtFirst(wf, start, a)) == Moved(AtSecond(wf, start, a, x))
  {
    NoneMoves(env, AtFirst(wf, start, a), a, d, wf, g, x, AtSecond(wf, start, a, x));
  }

  /** From the ordered job, `_run_next` passes `__start__` and `a` and
      carries on at `x`, two recursion levels down. */
  lemma PrefixRun(env: Env, wf: ClassRef, g: Digraph, start: ClassRef, a: ClassRef, x: ClassRef, s: StepDef, d: StepDef,
                  depth: nat, o: Outcome)
    requires PrefixLoaded(env, wf, g, start, a, x, s, d)
    requires depth >= 2 && RunNext(env, AtSecond(wf, start, a, x), Below(Below(depth))) == o
    ensures RunNext(env, Ordered(wf, start), depth) == o
  {
    var d1 := Below(depth);
    var d2 := Below(d1);
    PrefixStart(env, wf, g, start, a, x, s, d);
    PrefixFirst(env, wf, g, start, a, x, s, d);
    MovesOn(env, AtFirst(wf, start, a), AtSecond(wf, start, a, x), d1, d2);
    MovesOn(env, Ordered(wf, start), AtFirst(wf, start, a), depth, d1);
  }

  /** `TestWorkflowSuccess` as the test module defines it: `__start__`
      defined as `s`, three distinct empty steps defined as `d`, and a `Step`
      record for each of them. */
  ghost predicate SuccessDefined(env: Env, wf: ClassRef, start: ClassRef, a: ClassRef, b: ClassRef, c: ClassRef,
                                 s: StepDef, d: StepDef)
  {
    && ReturnsNone(s) && ReturnsNone(d)
    && Defines(env.modules, start, StepClass(s)) && Defines(env.modules, a, StepClass(d))
    && Defines(env.modules, b, StepClass(d)) && Defines(env.modules, c, StepClass(d))
    && Defines(env.modules, wf, WorkflowClass(Some(SuccessGraph(start, a, b, c))))
    && start != a && start != b && start != c && a != b && a != c && b != c
    && PathOf(a) in env.stepTable && PathOf(b) in env.stepTable && PathOf(c) in env.stepTable
  }

  lemma SuccessPrefix(env: Env, wf: ClassRef, start: ClassRef, a: ClassRef, b: ClassRef, c: ClassRef, s: StepDef, d: StepDef)
    requires SuccessDefined(env, wf, start, a, b, c, s, d)
    ensures PrefixLoaded(env, wf, SuccessGraph(start, a, b, c), start, a, b, s, d)
  {
    FirstEdges(SuccessGraph(start, a, b, c), start, a, b);
  }

  /** `b` leads to `c`, which has no successor. */
  lemma SuccessLastEdges(start: ClassRef, a: ClassRef, b: ClassRef, c: ClassRef)
    requires start != b && a != b && start != c && a != c && b != c
    ensures Successors(SuccessGraph(start, a, b, c), b) == Some([c]) && Terminal(SuccessGraph(start, a, b, c), c)
  {
    SuccessorsAt(SuccessGraph(start, a, b, c), 2, b);
  }

  /** The job that has just reached position 3, at step `c`. */
  function AtThird(wf: ClassRef, start: ClassRef, a: ClassRef, b: ClassRef, c: ClassRef): Job
  {
    Job(PathOf(wf), Some(PathOf(c)), 3, AfterFirst(start, a) + [NoneEntry(b)], Ongoing)
  }

  function SuccessEnd(wf: ClassRef, start: ClassRef, a: ClassRef, b: ClassRef, c: ClassRef): Job
  {
    var last := AtThird(wf, start, a, b, c);
    last.(state := Finished, data := last.data + [NoneEntry(c)])
  }

  lemma SuccessSecond(env: Env, wf: ClassRef, start: ClassRef, a: ClassRef, b: ClassRef, c: ClassRef, s: StepDef, d: StepDef)
    requires SuccessDefined(env, wf, start, a, b, c, s, d)
    ensures RunStep(env, AtSecond(wf, start, a, b)) == Moved(AtThird(wf, start, a, b, c))
  {
    SuccessLastEdges(start, a, b, c);
    NoneMoves(env, AtSecond(wf, start, a, b), b, d, wf, SuccessGraph(start, a, b, c), c, AtThird(wf, start, a, b, c));
  }

  lemma SuccessThird(env: Env, wf: ClassRef, start: ClassRef, a: ClassRef, b: ClassRef, c: ClassRef, s: StepDef, d: StepDef)
    requires SuccessDefined(env, wf, start, a, b, c, s, d)
    ensures RunStep(env, AtThird(wf, start, a, b, c)) == Completed(SuccessEnd(wf, start, a, b, c))
  {
    SuccessLastEdges(start, a, b, c);
    NoneEnds(env, AtThird(wf, start, a, b, c), c, d, wf, SuccessGraph(start, a, b, c),
             Completed(SuccessEnd(wf, start, a, b, c)));
  }

  lemma SuccessRun(env: Env, wf: ClassRef, start: ClassRef, a: ClassRef, b: ClassRef, c: ClassRef, s: StepDef, d: StepDef,
                   depth: nat)
    requires SuccessDefined(env, wf, start, a, b, c, s, d)
    requires depth >= 4
    ensures RunNext(env, Ordered(wf, start), depth) == Completed(SuccessEnd(wf, start, a, b, c))
  {
    SuccessPrefix(env, wf, start, a, b, c, s, d);
    var o := Completed(SuccessEnd(wf, start, a, b, c));
    var d2 := Below(Below(depth));
    var d3 := Below(d2);
    SuccessSecond(env, wf, start, a, b, c, s, d);
    SuccessThird(env, wf, start, a, b, c, s, d);
    Stops(env, AtThird(wf, start, a, b, c), o, d3);
    MovesOn(env, AtSecond(wf, start, a, b), AtThird(wf, start, a, b, c), d2, d3);
    PrefixRun(env, wf, SuccessGraph(start, a, b, c), start, a, b, s, d, depth, o);
  }

  /** The log `TestWorkflowSuccess` leaves: one `None` result per step. */
  lemma SuccessLog(wf: ClassRef, start: ClassRef, a: ClassRef, b: ClassRef, c: ClassRef)
    ensures SuccessEnd(wf, start, a, b, c).data == [NoneEntry(start), NoneEntry(a), NoneEntry(b), NoneEntry(c)]
  {
  }

  /** `TestWorkflowSuccess`: executing the ordered job finishes at step 3,
      the last step, with a `None` result recorded for each of the four steps. */
  lemma SuccessWorkflow(env: Env, wf: ClassRef, start: ClassRef, a: ClassRef, b: ClassRef, c: ClassRef,
                        s: StepDef, d: StepDef, depth: nat)
    requires SuccessDefined(env, wf, start, a, b, c, s, d)
    requires depth >= 4
    ensures Execute(env, Ordered(wf, start), depth).Ok?
    ensures var r := Execute(env, Ordered(wf, start), depth).value;
            && r.state == Finished && r.stepNumber == 3 && r.currentStep == Some(PathOf(c))
            && r.data == [NoneEntry(start), NoneEntry(a), NoneEntry(b), NoneEntry(c)]
  {
    SuccessRun(env, wf, start, a, b, c, s, d, depth);
    Executes(env, Ordered(wf, start), Completed(SuccessEnd(wf, start, a, b, c)), depth);
    SuccessLog(wf, start, a, b, c);
  }

  /** A step that takes no input and whose `execute` raises `e`. */
  ghost predicate Raises(d: StepDef, e: Error)
  {
    !RequiresInput(d) && forall prev, ext :: d.execute(prev, ext) == Err(e)
  }

  lemma ErrorStepRaises()
    ensures Raises(ErrorStep(), StepException)
  {
  }

  /** A raising step leaves the job `Ongoing` at that step, its log untouched. */
  lemma StepFails(env: Env, job: Job, step: ClassRef, d: StepDef, wf: ClassRef, g: Digraph, e: Error)
    requires Raises(d, e)
    requires job.currentStep == Some(PathOf(step)) && job.workflow == PathOf(wf)
    requires Defines(env.modules, step, StepClass(d)) && Defines(env.modules, wf, WorkflowClass(Some(g)))
    requires PreviousInput(job.data, job.stepNumber).Ok?
    ensures RunStep(env, job) == Raised(job.(state := Ongoing), e)
  {
    Loads(env, job, step, d, wf, g);
  }

  /** `TestWorkflowError` as the test module defines it: `__start__` defined
      as `s`, an empty step `a` defined as `d`, and `ErrorStep` defined as
      `x`, which raises `StepException`. */
  ghost predicate ErrorDefined(env: Env, wf: ClassRef, start: ClassRef, a: ClassRef, e: ClassRef,
                               s: StepDef, d: StepDef, x: StepDef)
  {
    && ReturnsNone(s) && ReturnsNone(d) && Raises(x, StepException)
    && Defines(env.modules, start, StepClass(s)) && Defines(env.modules, a, StepClass(d))
    && Defines(env.modules, e, StepClass(x))
    && Defines(env.modules, wf, WorkflowClass(Some(ErrorGraph(start, a, e))))
    && start != a
    && PathOf(a) in env.stepTable && PathOf(e) in env.stepTable
  }

  lemma ErrorPrefix(env: Env, wf: ClassRef, start: ClassRef, a: ClassRef, e: ClassRef, s: StepDef, d: StepDef, x: StepDef)
    requires ErrorDefined(env, wf, start, a, e, s, d, x)
    ensures PrefixLoaded(env, wf, ErrorGraph(start, a, e), start, a, e, s, d)
  {
    FirstEdges(ErrorGraph(start, a, e), start, a, e);
  }

  lemma ErrorRun(env: Env, wf: ClassRef, start: ClassRef, a: ClassRef, e: ClassRef, s: StepDef, d: StepDef, x: StepDef,
                 depth: nat)
    requires ErrorDefined(env, wf, start, a, e, s, d, x)
    requires depth >= 3
    ensures RunNext(env, Ordered(wf, start), depth) == Raised(AtSecond(wf, start, a, e).(state := Ongoing), StepException)
  {
    ErrorPrefix(env, wf, start, a, e, s, d, x);
    var o := Raised(AtSecond(wf, start, a, e).(state := Ongoing), StepException);
    StepFails(env, AtSecond(wf, start, a, e), e, x, wf, ErrorGraph(start, a, e), StepException);
    Stops(env, AtSecond(wf, start, a, e), o, Below(Below(depth)));
    PrefixRun(env, wf, ErrorGraph(start, a, e), start, a, e, s, d, depth, o);
  }

  /** `TestWorkflowError`: the job fails at step 2, the raising step, with
      nothing logged for that step. */
  lemma ErrorWorkflow(env: Env, wf: ClassRef, start: ClassRef, a: ClassRef, e: ClassRef, s: StepDef, d: StepDef, x: StepDef,
                      depth: nat)
    requires ErrorDefined(env, wf, start, a, e, s, d, x)
    requires depth >= 3
    ensures Execute(env, Ordered(wf, start), depth).Ok?
    ensures var r := Execute(env, Ordered(wf, start), depth).value;
            && r.state == Failed && r.stepNumber == 2 && r.currentStep == Some(PathOf(e))
            && r.data == [NoneEntry(start), NoneEntry(a)]
  {
    ErrorRun(env, wf, start, a, e, s, d, x, depth);
    AfterFirstLog(start, a);
    Executes(env, Ordered(wf, start), Raised(AtSecond(wf, start, a, e).(state := Ongoing), StepException), depth);
  }

  /** The payload `TestWorkflowExternalInput` is given: `{"external_int": 1}`. */
  function ExternalInt(): map<string, Value>
  {
    map["external_int" := VInt(1)]
  }

  /** `ExternalInputStep`: it takes input; its schema keeps an integer
      `external_int` as it is and refuses a payload without that field or
      with `None`, a list or a dict in it; `execute` returns the field and
      the step continues on edge 0. */
  ghost predicate ReadsExternalInt(u: StepDef)
  {
    && RequiresInput(u)
    && (forall p: map<string, Value> | "external_int" in p && p["external_int"].VInt? ::
          u.schema.validate(p) == Some(map["external_int" := p["external_int"]]))
    && (forall p: map<string, Value> | "external_int" !in p ::
          u.schema.validate(p).None?)
    && (forall p: map<string, Value> | "external_int" in p && (p["external_int"].VNull? || p["external_int"].VList? || p["external_int"].VDict?) ::
          u.schema.validate(p).None?)
    && (forall prev: Value, ext: Value | ext.VDict? && "external_int" in ext.fields :: u.execute(prev, ext) == Ok(ext.fields["external_int"]))
    && (forall prev: Value, ext: Value, res: Value :: u.transition(prev, ext, res) == Ok(VInt(0)))
  }

  lemma ExternalInputReads()
    ensures ReadsExternalInt(ExternalInputStep())
  {
  }

  /** A step that needs input it has not received holds the job. */
  lemma StepPauses(env: Env, job: Job, step: ClassRef, d: StepDef, wf: ClassRef, g: Digraph)
    requires RequiresInput(d) && job.state != InputReceived
    requires job.currentStep == Some(PathOf(step)) && job.workflow == PathOf(wf)
    requires Defines(env.modules, step, StepClass(d)) && Defines(env.modules, wf, WorkflowClass(Some(g)))
    ensures RunStep(env, job) == Paused(job.(state := InputRequired))
  {
    Loads(env, job, step, d, wf, g);
  }

  /** `TestWorkflowExternalInput` as the test module defines it: `__start__`
      defined as `s`, empty steps `a` and `b` defined as `d`, and
      `ExternalInputStep` defined as `u` between them. */
  ghost predicate InputDefined(env: Env, wf: ClassRef, start: ClassRef, a: ClassRef, x: ClassRef, b: ClassRef,
                               s: StepDef, d: StepDef, u: StepDef)
  {
    && ReturnsNone(s) && ReturnsNone(d) && ReadsExternalInt(u)
    && Defines(env.modules, start, StepClass(s)) && Defines(env.modules, a, StepClass(d))
    && Defines(env.modules, x, StepClass(u)) && Defines(env.modules, b, StepClass(d))
    && Defines(env.modules, wf, WorkflowClass(Some(InputGraph(start, a, x, b))))
    && start != a && start != x && start != b && a != x && a != b && x != b
    && PathOf(a) in env.stepTable && PathOf(x) in env.stepTable && PathOf(b) in env.stepTable
  }

  lemma InputPrefix(env: Env, wf: ClassRef, start: ClassRef, a: ClassRef, x: ClassRef, b: ClassRef,
                    s: StepDef, d: StepDef, u: StepDef)
    requires InputDefined(env, wf, start, a, x, b, s, d, u)
    ensures PrefixLoaded(env, wf, InputGraph(start, a, x, b), start, a, x, s, d)
  {
    FirstEdges(InputGraph(start, a, x, b), start, a, x);
  }

  /** `x` leads to `b`, which has no successor. */
  lemma InputLastEdges(start: ClassRef, a: ClassRef, x: ClassRef, b: ClassRef)
    requires start != x && a != x && start != b && a != b && x != b
    ensures Successors(InputGraph(start, a, x, b), x) == Some([b]) && Terminal(InputGraph(start, a, x, b), b)
  {
    SuccessorsAt(InputGraph(start, a, x, b), 2, x);
  }

  /** The job held at `ExternalInputStep`. */
  function Waiting(wf: ClassRef, start: ClassRef, a: ClassRef, x: ClassRef): Job
  {
    AtSecond(wf, start, a, x).(state := InputRequired)
  }

  lemma InputRun(env: Env, wf: ClassRef, start: ClassRef, a: ClassRef, x: ClassRef, b: ClassRef,
                 s: StepDef, d: StepDef, u: StepDef, depth: nat)
    requires InputDefined(env, wf, start, a, x, b, s, d, u)
    requires depth >= 3
    ensures RunNext(env, Ordered(wf, start), depth) == Paused(Waiting(wf, start, a, x))
  {
    InputPrefix(env, wf, start, a, x, b, s, d, u);
    var o := Paused(Waiting(wf, start, a, x));
    StepPauses(env, AtSecond(wf, start, a, x), x, u, wf, InputGraph(start, a, x, b));
    Stops(env, AtSecond(wf, start, a, x), o, Below(Below(depth)));
    PrefixRun(env, wf, InputGraph(start, a, x, b), start, a, x, s, d, depth, o);
  }

  /** `TestWorkflowExternalInput`, first run: the job stops at step 2 waiting
      for input, with nothing logged for that step. */
  lemma InputWorkflow(env: Env, wf: ClassRef, start: ClassRef, a: ClassRef, x: ClassRef, b: ClassRef,
                      s: StepDef, d: StepDef, u: StepDef, depth: nat)
    requires InputDefined(env, wf, start, a, x, b, s, d, u)
    requires depth >= 3
    ensures Execute(env, Ordered(wf, start), depth).Ok?
    ensures var r := Execute(env, Ordered(wf, start), depth).value;
            && r == Waiting(wf, start, a, x)
            && r.state == InputRequired && r.stepNumber == 2 && r.currentStep == Some(PathOf(x))
            && r.data == [NoneEntry(start), NoneEntry(a)]
  {
    InputRun(env, wf, start, a, x, b, s, d, u, depth);
    AfterFirstLog(start, a);
    Executes(env, Ordered(wf, start), Paused(Waiting(wf, start, a, x)), depth);
  }

  /** The job once `{"external_int": 1}` has been accepted: a new entry for
      step 2 holds the input and no result yet. */
  function Received(wf: ClassRef, start: ClassRef, a: ClassRef, x: ClassRef): Job
  {
    Job(PathOf(wf), Some(PathOf(x)), 2, AfterFirst(start, a) + [Entry(PathOf(x), None, Some(VDict(ExternalInt())))],
        InputReceived)
  }

  /** `test_provide_external_input_success`: the input is stored on entry 2
      and the job marked `INPUT_RECEIVED`. */
  lemma InputProvided(env: Env, wf: ClassRef, start: ClassRef, a: ClassRef, x: ClassRef, u: StepDef)
    requires ReadsExternalInt(u) && Defines(env.modules, x, StepClass(u))
    ensures ProvideExternalInput(env, Waiting(wf, start, a, x), ExternalInt()) == Ok(Received(wf, start, a, x))
    ensures Received(wf, start, a, x).data[2].externalData == Some(VDict(ExternalInt()))
  {
    ImportDefined(env.modules, x, StepClass(u));
    assert u.schema.validate(ExternalInt()) == Some(ExternalInt());
  }

  /** `test_provide_external_input_error`: `{"external_int": {}}` fails
      validation, so the job is left as it was. */
  lemma InputRejected(env: Env, wf: ClassRef, start: ClassRef, a: ClassRef, x: ClassRef, u: StepDef)
    requires ReadsExternalInt(u) && Defines(env.modules, x, StepClass(u))
    ensures ProvideExternalInput(env, Waiting(wf, start, a, x), map["external_int" := VDict(map[])]) == Err(ValidationError)
  {
    ImportDefined(env.modules, x, StepClass(u));
    assert u.schema.validate(map["external_int" := VDict(map[])]).None?;
  }

  /** The job after `ExternalInputStep` returned the input's integer and
      moved on to `b`. */
  function Resumed(wf: ClassRef, start: ClassRef, a: ClassRef, x: ClassRef, b: ClassRef): Job
  {
    Job(PathOf(wf), Some(PathOf(b)), 3,
        AfterFirst(start, a) + [Entry(PathOf(x), Some(VInt(1)), Some(VDict(ExternalInt())))], Ongoing)
  }

  function ResumeEnd(wf: ClassRef, start: ClassRef, a: ClassRef, x: ClassRef, b: ClassRef): Job
  {
    var last := Resumed(wf, start, a, x, b);
    last.(state := Finished, data := last.data + [NoneEntry(b)])
  }

  /** What `ExternalInputStep` sees on resuming: entry 1's `None` result
      as input, the stored payload as external input; writing its result
      fills entry 2 in place. */
  lemma ResumeLog(wf: ClassRef, start: ClassRef, a: ClassRef, x: ClassRef, b: ClassRef)
    ensures PreviousInput(Received(wf, start, a, x).data, 2) == Ok(VNull)
    ensures ExternalInputAt(Received(wf, start, a, x).data, 2) == VDict(ExternalInt())
    ensures WriteResult(Received(wf, start, a, x).data, 2, PathOf(x), VInt(1)) == Resumed(wf, start, a, x, b).data
  {
    var log := Received(wf, start, a, x).data;
    assert log[1] == NoneEntry(a);
    assert log[2 := log[2].(result := Some(VInt(1)))] == Resumed(wf, start, a, x, b).data;
  }

  /** Given `{"external_int": 1}`, `ExternalInputStep` returns 1 and takes edge 0. */
  lemma ReadsOne(u: StepDef, prev: Value)
    requires ReadsExternalInt(u)
    ensures u.execute(prev, VDict(ExternalInt())) == Ok(VInt(1))
    ensures u.transition(prev, VDict(ExternalInt()), VInt(1)) == Ok(VInt(0))
  {
    assert "external_int" in VDict(ExternalInt()).fields;
  }

  lemma ResumeStep(env: Env, wf: ClassRef, start: ClassRef, a: ClassRef, x: ClassRef, b: ClassRef,
                   s: StepDef, d: StepDef, u: StepDef)
    requires InputDefined(env, wf, start, a, x, b, s, d, u)
    ensures RunStep(env, Received(wf, start, a, x)) == Moved(Resumed(wf, start, a, x, b))
  {
    var job := Received(wf, start, a, x);
    var g := InputGraph(start, a, x, b);
    var f := Frame(PathOf(x), x, u, WorkflowClass(Some(g)));
    InputLastEdges(start, a, x, b);
    ResumeLog(wf, start, a, x, b);
    ReadsOne(u, VNull);
    Loads(env, job, x, u, wf, g);
    StepRuns(env, job, f, VNull, VInt(1), VInt(0));
    Follows(env, f, g, 0, b, job.(state := Ongoing, data := Resumed(wf, start, a, x, b).data));
  }

  lemma ResumeLast(env: Env, wf: ClassRef, start: ClassRef, a: ClassRef, x: ClassRef, b: ClassRef,
                   s: StepDef, d: StepDef, u: StepDef)
    requires InputDefined(env, wf, start, a, x, b, s, d, u)
    ensures RunStep(env, Resumed(wf, start, a, x, b)) == Completed(ResumeEnd(wf, start, a, x, b))
  {
    InputLastEdges(start, a, x, b);
    NoneEnds(env, Resumed(wf, start, a, x, b), b, d, wf, InputGraph(start, a, x, b),
             Completed(ResumeEnd(wf, start, a, x, b)));
  }

  lemma ResumeRun(env: Env, wf: ClassRef, start: ClassRef, a: ClassRef, x: ClassRef, b: ClassRef,
                  s: StepDef, d: StepDef, u: StepDef, depth: nat)
    requires InputDefined(env, wf, start, a, x, b, s, d, u)
    requires depth >= 2
    ensures RunNext(env, Received(wf, start, a, x), depth) == Completed(ResumeEnd(wf, start, a, x, b))
  {
    var o := Completed(ResumeEnd(wf, start, a, x, b));
    var below := Below(depth);
    ResumeStep(env, wf, start, a, x, b, s, d, u);
    ResumeLast(env, wf, start, a, x, b, s, d, u);
    Stops(env, Resumed(wf, start, a, x, b), o, below);
    MovesOn(env, Received(wf, start, a, x), Resumed(wf, start, a, x, b), depth, below);
  }

  /** The finished log: four entries, the third holding the returned 1. */
  lemma ResumeEndLog(wf: ClassRef, start: ClassRef, a: ClassRef, x: ClassRef, b: ClassRef)
    ensures |ResumeEnd(wf, start, a, x, b).data| == 4
    ensures ResumeEnd(wf, start, a, x, b).data[2] == Entry(PathOf(x), Some(VInt(1)), Some(VDict(ExternalInt())))
  {
  }

  /** `test_execute_after_receiving_input`: resuming finishes at step 3,
      and entry 2 holds the integer `ExternalInputStep` returned. */
  lemma ResumeWorkflow(env: Env, wf: ClassRef, start: ClassRef, a: ClassRef, x: ClassRef, b: ClassRef,
                       s: StepDef, d: StepDef, u: StepDef, depth: nat)
    requires InputDefined(env, wf, start, a, x, b, s, d, u)
    requires depth >= 2
    ensures Execute(env, Received(wf, start, a, x), depth).Ok?
    ensures var r := Execute(env, Received(wf, start, a, x), depth).value;
            && r.state == Finished && r.stepNumber == 3 && r.currentStep == Some(PathOf(b))
            && |r.data| == 4 && r.data[2].result == Some(VInt(1))
  {
    ResumeRun(env, wf, start, a, x, b, s, d, u, depth);
    Executes(env, Received(wf, start, a, x), Completed(ResumeEnd(wf, start, a, x, b)), depth);
    ResumeEndLog(wf, start, a, x, b);
  }

  /** The whole journey: run, hold for input, accept `{"external_int": 1}`,
      run again to the end. */
  lemma InputJourney(env: Env, wf: ClassRef, start: ClassRef, a: ClassRef, x: ClassRef, b: ClassRef,
                     s: StepDef, d: StepDef, u: StepDef, depth: nat)
    requires InputDefined(env, wf, start, a, x, b, s, d, u)
    requires depth >= 3
    ensures Execute(env, Ordered(wf, start), depth).Ok?
    ensures var held := Execute(env, Ordered(wf, start), depth).value;
            && held.state == InputRequired
            && ProvideExternalInput(env, held, ExternalInt()).Ok?
            && Execute(env, ProvideExternalInput(env, held, ExternalInt()).value, depth).Ok?
            && var r := Execute(env, ProvideExternalInput(env, held, ExternalInt()).value, depth).value;
            && r.state == Finished && r.stepNumber == 3 && |r.data| > 2 && r.data[2].result == Some(VInt(1))
  {
    InputWorkflow(env, wf, start, a, x, b, s, d, u, depth);
    InputProvided(env, wf, start, a, x, u);
    ResumeWorkflow(env, wf, start, a, x, b, s, d, u, depth);
  }

  /** A step that takes no input and runs through, reached with one log
      entry per earlier step, appends its result and follows edge `k`. */
  lemma StepMoves(env: Env, job: Job, step: ClassRef, d: StepDef, wf: ClassRef, g: Digraph,
                  prev: Value, res: Value, k: nat, succ: ClassRef, next: Job)
    requires !RequiresInput(d)
    requires job.currentStep == Some(PathOf(step)) && job.workflow == PathOf(wf)
    requires Defines(env.modules, step, StepClass(d)) && Defines(env.modules, wf, WorkflowClass(Some(g)))
    requires |job.data| == job.stepNumber && PreviousInput(job.data, job.stepNumber) == Ok(prev)
    requires d.execute(prev, VNull) == Ok(res) && d.transition(prev, VNull, res) == Ok(VInt(k))
    requires Successors(g, step).Some? && k < |Successors(g, step).value| && Successors(g, step).value[k] == succ
    requires PathOf(succ) in env.stepTable
    requires next == Job(job.workflow, Some(PathOf(succ)), job.stepNumber + 1,
                         job.data + [Entry(PathOf(step), Some(res), None)], Ongoing)
    ensures RunStep(env, job) == Moved(next)
  {
    var f := Frame(PathOf(step), step, d, WorkflowClass(Some(g)));
    Loads(env, job, step, d, wf, g);
    StepRuns(env, job, f, prev, res, VInt(k));
    Follows(env, f, g, k, succ, job.(state := Ongoing, data := WriteResult(job.data, job.stepNumber, f.path, res)));
  }

  /** `TestWorkflowDecision`: `__start__ -> rnd -> dec`, where the decision
      `dec` branches to `a` (edge 0) or `b` (edge 1), and both lead to `c`. */
  function DecisionGraph(start: ClassRef, rnd: ClassRef, dec: ClassRef, a: ClassRef, b: ClassRef, c: ClassRef): Digraph
  {
    [Adjacency(start, [rnd]), Adjacency(rnd, [dec]), Adjacency(dec, [a, b]), Adjacency(a, [c]), Adjacency(b, [c])]
  }

  /** `TestWorkflowDecision` as the test module defines it: `__start__`
      defined as `s`, `RandomIntStep` having drawn `coin`, the test module's
      `Decision`, and three distinct empty steps defined as `e`. */
  ghost predicate DecisionDefined(env: Env, wf: ClassRef, start: ClassRef, rnd: ClassRef, dec: ClassRef,
                                  a: ClassRef, b: ClassRef, c: ClassRef, s: StepDef, e: StepDef, coin: nat)
  {
    && ReturnsNone(s) && ReturnsNone(e) && coin <= 1
    && Defines(env.modules, start, StepClass(s)) && Defines(env.modules, rnd, StepClass(RandomIntStep(coin)))
    && Defines(env.modules, dec, StepClass(DecisionStep()))
    && Defines(env.modules, a, StepClass(e)) && Defines(env.modules, b, StepClass(e))
    && Defines(env.modules, c, StepClass(e))
    && Defines(env.modules, wf, WorkflowClass(Some(DecisionGraph(start, rnd, dec, a, b, c))))
    && start != rnd && start != dec && start != a && start != b && start != c
    && rnd != dec && rnd != a && rnd != b && rnd != c
    && dec != a && dec != b && dec != c && a != b && a != c && b != c
    && PathOf(rnd) in env.stepTable && PathOf(dec) in env.stepTable
    && PathOf(a) in env.stepTable && PathOf(b) in env.stepTable && PathOf(c) in env.stepTable
  }

  lemma DecisionFirstEdges(start: ClassRef, rnd: ClassRef, dec: ClassRef, a: ClassRef, b: ClassRef, c: ClassRef)
    requires start != rnd
    ensures var g := DecisionGraph(start, rnd, dec, a, b, c);
            Successors(g, start) == Some([rnd]) && Successors(g, rnd) == Some([dec])
  {
    var g := DecisionGraph(start, rnd, dec, a, b, c);
    SuccessorsAt(g, 0, start);
    SuccessorsAt(g, 1, rnd);
  }

  lemma DecisionBranchEdges(start: ClassRef, rnd: ClassRef, dec: ClassRef, a: ClassRef, b: ClassRef, c: ClassRef)
    requires start != dec && rnd != dec
    ensures Successors(DecisionGraph(start, rnd, dec, a, b, c), dec) == Some([a, b])
  {
    SuccessorsAt(DecisionGraph(start, rnd, dec, a, b, c), 2, dec);
  }

  lemma DecisionJoinEdges(start: ClassRef, rnd: ClassRef, dec: ClassRef, a: ClassRef, b: ClassRef, c: ClassRef)
    requires start != a && start != b && rnd != a && rnd != b && dec != a && dec != b && a != b
    ensures var g := DecisionGraph(start, rnd, dec, a, b, c);
            Successors(g, a) == Some([c]) && Successors(g, b) == Some([c])
  {
    var g := DecisionGraph(start, rnd, dec, a, b, c);
    SuccessorsAt(g, 3, a);
    SuccessorsAt(g, 4, b);
  }

  lemma DecisionTerminal(start: ClassRef, rnd: ClassRef, dec: ClassRef, a: ClassRef, b: ClassRef, c: ClassRef)
    requires start != c && rnd != c && dec != c && a != c && b != c
    ensures Terminal(DecisionGraph(start, rnd, dec, a, b, c), c)
  {
    var g := DecisionGraph(start, rnd, dec, a, b, c);
    assert !IsNode(g, c) by {
      assert forall i | 0 <= i < |g| :: g[i].node != c;
    }
  }

  /** The branch the decision takes: edge `coin` of `[a, b]`. */
  function Branch(a: ClassRef, b: ClassRef, coin: nat): ClassRef
  {
    if coin == 0 then a else b
  }

  /** The log after `RandomIntStep` recorded the drawn integer. */
  function CoinLog(start: ClassRef, rnd: ClassRef, coin: nat): Log
  {
    [NoneEntry(start), Entry(PathOf(rnd), Some(VInt(coin)), None)]
  }

  /** The jobs the traversal passes through, at positions 2, 3 and 4. */
  function AtDecision(wf: ClassRef, start: ClassRef, rnd: ClassRef, dec: ClassRef, coin: nat): Job
  {
    Job(PathOf(wf), Some(PathOf(dec)), 2, CoinLog(start, rnd, coin), Ongoing)
  }

  function AtBranch(wf: ClassRef, start: ClassRef, rnd: ClassRef, dec: ClassRef, a: ClassRef, b: ClassRef, coin: nat): Job
  {
    Job(PathOf(wf), Some(PathOf(Branch(a, b, coin))), 3, CoinLog(start, rnd, coin) + [NoneEntry(dec)], Ongoing)
  }

  function AtJoin(wf: ClassRef, start: ClassRef, rnd: ClassRef, dec: ClassRef, a: ClassRef, b: ClassRef, c: ClassRef,
                  coin: nat): Job
  {
    Job(PathOf(wf), Some(PathOf(c)), 4,
        CoinLog(start, rnd, coin) + [NoneEntry(dec), NoneEntry(Branch(a, b, coin))], Ongoing)
  }

  function DecisionEnd(wf: ClassRef, start: ClassRef, rnd: ClassRef, dec: ClassRef, a: ClassRef, b: ClassRef, c: ClassRef,
                       coin: nat): Job
  {
    var last := AtJoin(wf, start, rnd, dec, a, b, c, coin);
    last.(state := Finished, data := last.data + [NoneEntry(c)])
  }

  lemma DecisionStart(env: Env, wf: ClassRef, start: ClassRef, rnd: ClassRef, s: StepDef, g: Digraph)
    requires ReturnsNone(s) && Defines(env.modules, start, StepClass(s))
    requires Defines(env.modules, wf, WorkflowClass(Some(g)))
    requires Successors(g, start) == Some([rnd]) && PathOf(rnd) in env.stepTable
    ensures RunStep(env, Ordered(wf, start)) == Moved(AtFirst(wf, start, rnd))
  {
    assert [] + [NoneEntry(start)] == AfterStart(start);
    NoneMoves(env, Ordered(wf, start), start, s, wf, g, rnd, AtFirst(wf, start, rnd));
  }

  /** `RandomIntStep` records the drawn integer and moves to the decision. */
  lemma DecisionDraw(env: Env, wf: ClassRef, start: ClassRef, rnd: ClassRef, dec: ClassRef, g: Digraph, coin: nat)
    requires Defines(env.modules, rnd, StepClass(RandomIntStep(coin)))
    requires Defines(env.modules, wf, WorkflowClass(Some(g)))
    requires Successors(g, rnd) == Some([dec]) && PathOf(dec) in env.stepTable
    ensures RunStep(env, AtFirst(wf, start, rnd)) == Moved(AtDecision(wf, start, rnd, dec, coin))
  {
    var job := AtFirst(wf, start, rnd);
    assert job.data + [Entry(PathOf(rnd), Some(VInt(coin)), None)] == CoinLog(start, rnd, coin);
    StepMoves(env, job, rnd, RandomIntStep(coin), wf, g, VNull, VInt(coin), 0, dec, AtDecision(wf, start, rnd, dec, coin));
  }

  lemma DecisionLog(wf: ClassRef, start: ClassRef, rnd: ClassRef, dec: ClassRef, a: ClassRef, b: ClassRef, c: ClassRef,
                    coin: nat)
    ensures DecisionEnd(wf, start, rnd, dec, a, b, c, coin).data
            == [NoneEntry(start), Entry(PathOf(rnd), Some(VInt(coin)), None), NoneEntry(dec),
                NoneEntry(if coin == 0 then a else b), NoneEntry(c)]
  {
  }

  /** The decision receives the drawn integer as its input and follows that edge. */
  lemma DecisionBranches(env: Env, wf: ClassRef, start: ClassRef, rnd: ClassRef, dec: ClassRef,
                         a: ClassRef, b: ClassRef, g: Digraph, coin: nat)
    requires coin <= 1
    requires Defines(env.modules, dec, StepClass(DecisionStep()))
    requires Defines(env.modules, wf, WorkflowClass(Some(g)))
    requires Successors(g, dec) == Some([a, b]) && PathOf(Branch(a, b, coin)) in env.stepTable
    ensures RunStep(env, AtDecision(wf, start, rnd, dec, coin)) == Moved(AtBranch(wf, start, rnd, dec, a, b, coin))
  {
    var job := AtDecision(wf, start, rnd, dec, coin);
    assert PreviousInput(job.data, 2) == Ok(VInt(coin));
    assert [a, b][coin] == Branch(a, b, coin);
    StepMoves(env, job, dec, DecisionStep(), wf, g, VInt(coin), VNull, coin, Branch(a, b, coin),
              AtBranch(wf, start, rnd, dec, a, b, coin));
  }

  /** Either branch returns `None` and joins at `c`. */
  lemma DecisionJoins(env: Env, wf: ClassRef, start: ClassRef, rnd: ClassRef, dec: ClassRef,
                      a: ClassRef, b: ClassRef, c: ClassRef, e: StepDef, g: Digraph, coin: nat)
    requires ReturnsNone(e) && Defines(env.modules, Branch(a, b, coin), StepClass(e))
    requires Defines(env.modules, wf, WorkflowClass(Some(g)))
    requires Successors(g, Branch(a, b, coin)) == Some([c]) && PathOf(c) in env.stepTable
    ensures RunStep(env, AtBranch(wf, start, rnd, dec, a, b, coin)) == Moved(AtJoin(wf, start, rnd, dec, a, b, c, coin))
  {
    var job := AtBranch(wf, start, rnd, dec, a, b, coin);
    assert PreviousInput(job.data, 3) == Ok(VNull);
    NoneMoves(env, job, Branch(a, b, coin), e, wf, g, c, AtJoin(wf, start, rnd, dec, a, b, c, coin));
  }

  lemma DecisionFinishes(env: Env, wf: ClassRef, start: ClassRef, rnd: ClassRef, dec: ClassRef,
                         a: ClassRef, b: ClassRef, c: ClassRef, e: StepDef, g: Digraph, coin: nat)
    requires ReturnsNone(e) && Defines(env.modules, c, StepClass(e))
    requires Defines(env.modules, wf, WorkflowClass(Some(g))) && Terminal(g, c)
    ensures RunStep(env, AtJoin(wf, start, rnd, dec, a, b, c, coin)) == Completed(DecisionEnd(wf, start, rnd, dec, a, b, c, coin))
  {
    var job := AtJoin(wf, start, rnd, dec, a, b, c, coin);
    assert PreviousInput(job.data, 4) == Ok(VNull);
    NoneEnds(env, job, c, e, wf, g, Completed(DecisionEnd(wf, start, rnd, dec, a, b, c, coin)));
  }

  /** From the decision on, three recursion levels finish the run. */
  lemma DecisionTail(env: Env, wf: ClassRef, start: ClassRef, rnd: ClassRef, dec: ClassRef,
                     a: ClassRef, b: ClassRef, c: ClassRef, s: StepDef, e: StepDef, coin: nat, depth: nat)
    requires DecisionDefined(env, wf, start, rnd, dec, a, b, c, s, e, coin)
    requires depth >= 3
    ensures RunNext(env, AtDecision(wf, start, rnd, dec, coin), depth) == Completed(DecisionEnd(wf, start, rnd, dec, a, b, c, coin))
  {
    var o := Completed(DecisionEnd(wf, start, rnd, dec, a, b, c, coin));
    var g := DecisionGraph(start, rnd, dec, a, b, c);
    var d1 := Below(depth);
    var d2 := Below(d1);
    DecisionBranchEdges(start, rnd, dec, a, b, c);
    DecisionJoinEdges(start, rnd, dec, a, b, c);
    DecisionTerminal(start, rnd, dec, a, b, c);
    DecisionBranches(env, wf, start, rnd, dec, a, b, g, coin);
    DecisionJoins(env, wf, start, rnd, dec, a, b, c, e, g, coin);
    DecisionFinishes(env, wf, start, rnd, dec, a, b, c, e, g, coin);
    Stops(env, AtJoin(wf, start, rnd, dec, a, b, c, coin), o, d2);
    MovesOn(env, AtBranch(wf, start, rnd, dec, a, b, coin), AtJoin(wf, start, rnd, dec, a, b, c, coin), d1, d2);
    MovesOn(env, AtDecision(wf, start, rnd, dec, coin), AtBranch(wf, start, rnd, dec, a, b, coin), depth, d1);
  }

  lemma DecisionRun(env: Env, wf: ClassRef, start: ClassRef, rnd: ClassRef, dec: ClassRef,
                    a: ClassRef, b: ClassRef, c: ClassRef, s: StepDef, e: StepDef, coin: nat, depth: nat)
    requires DecisionDefined(env, wf, start, rnd, dec, a, b, c, s, e, coin)
    requires depth >= 5
    ensures RunNext(env, Ordered(wf, start), depth) == Completed(DecisionEnd(wf, start, rnd, dec, a, b, c, coin))
  {
    var g := DecisionGraph(start, rnd, dec, a, b, c);
    var d1 := Below(depth);
    var d2 := Below(d1);
    DecisionFirstEdges(start, rnd, dec, a, b, c);
    DecisionStart(env, wf, start, rnd, s, g);
    DecisionDraw(env, wf, start, rnd, dec, g, coin);
    DecisionTail(env, wf, start, rnd, dec, a, b, c, s, e, coin, d2);
    MovesOn(env, AtFirst(wf, start, rnd), AtDecision(wf, start, rnd, dec, coin), d1, d2);
    MovesOn(env, Ordered(wf, start), AtFirst(wf, start, rnd), depth, d1);
  }

  /** `TestWorkflowDecision`: whichever integer `RandomIntStep` draws, the
      decision takes that edge, and the job finishes at step 4 with the
      drawn integer logged for `RandomIntStep` and the chosen branch logged
      at position 3. */
  lemma DecisionWorkflow(env: Env, wf: ClassRef, start: ClassRef, rnd: ClassRef, dec: ClassRef,
                         a: ClassRef, b: ClassRef, c: ClassRef, s: StepDef, e: StepDef, coin: nat, depth: nat)
    requires DecisionDefined(env, wf, start, rnd, dec, a, b, c, s, e, coin)
    requires depth >= 5
    ensures Execute(env, Ordered(wf, start), depth).Ok?
    ensures var r := Execute(env, Ordered(wf, start), depth).value;
            && r.state == Finished && r.stepNumber == 4 && r.currentStep == Some(PathOf(c))
            && r.data == [NoneEntry(start), Entry(PathOf(rnd), Some(VInt(coin)), None), NoneEntry(dec),
                          NoneEntry(if coin == 0 then a else b), NoneEntry(c)]
  {
    DecisionRun(env, wf, start, rnd, dec, a, b, c, s, e, coin, depth);
    Executes(env, Ordered(wf, start), Completed(DecisionEnd(wf, start, rnd, dec, a, b, c, coin)), depth);
    DecisionLog(wf, start, rnd, dec, a, b, c, coin);
  }
}

=== FILE: steps.dfy ===
/** The step contract: a step has an input schema, an `execute` that turns the
    previous result and the external input into a result, and a `transition`
    that picks the index of the next step. User code is represented by the
    function values a step carries; raising is an `Err`. */
module Steps {
  import opened Values
  import opened ExecutionLog

  /** A step's `UserInputSchema`: its declared field names and the validation
      it performs, returning the validated payload (`.dict()`) or nothing when
      validation fails. */
  datatype Schema = Schema(fields: set<string>, validate: map<string, Value> -> Option<map<string, Value>>)

  datatype StepDef = StepDef(
    schema: Schema,
    execute: (Value, Value) -> Result<Value>,         // (previous result, external input)
    transition: (Value, Value, Value) -> Result<Value> // (previous result, external input, result)
  )

  /** `BaseStep.UserInputSchema`: a model declaring no field, so it accepts any
      payload and keeps nothing of it. */
  function BaseSchema(): (s: Schema)
    ensures s.fields == {}
    ensures forall p :: s.validate(p) == Some(map[])
  {
    Schema({}, p => Some(map[]))
  }

  /** A step needs external input exactly when its schema declares a field. */
  predicate RequiresInput(d: StepDef)
  {
    d.schema.fields != {}
  }

  /** `BaseStep` itself: neither operation is implemented. */
  function BaseStep(schema: Schema): (d: StepDef)
    ensures d.schema == schema
    ensures forall prev, ext :: d.execute(prev, ext) == Err(NotImplemented)
    ensures forall prev, ext, res :: d.transition(prev, ext, res) == Err(NotImplemented)
  {
    StepDef(schema, (prev, ext) => Err(NotImplemented), (prev, ext, res) => Err(NotImplemented))
  }

  /** A `Step` subclass supplying `execute`; its `transition` always picks edge 0. */
  function UserStep(schema: Schema, execute: (Value, Value) -> Result<Value>): (d: StepDef)
    ensures d.schema == schema
    ensures forall prev, ext :: d.execute(prev, ext) == execute(prev, ext)
    ensures forall prev, ext, res :: d.transition(prev, ext, res) == Ok(VInt(0))
  {
    StepDef(schema, execute, (prev, ext, res) => Ok(VInt(0)))
  }

  /** `Step` without an overridden `execute`, which raises `NotImplementedError`. */
  function PlainStep(): (d: StepDef)
    ensures !RequiresInput(d)
    ensures forall prev, ext :: d.execute(prev, ext) == Err(NotImplemented)
    ensures forall prev, ext, res :: d.transition(prev, ext, res) == Ok(VInt(0))
  {
    UserStep(BaseSchema(), (prev, ext) => Err(NotImplemented))
  }

  /** A `Decision` subclass supplying `transition`; its `execute` returns `None`. */
  function UserDecision(schema: Schema, transition: (Value, Value, Value) -> Result<Value>): (d: StepDef)
    ensures d.schema == schema
    ensures forall prev, ext :: d.execute(prev, ext) == Ok(VNull)
    ensures forall prev, ext, res :: d.transition(prev, ext, res) == transition(prev, ext, res)
  {
    StepDef(schema, (prev, ext) => Ok(VNull), transition)
  }

  /** `Decision` without an overridden `transition`, which raises `NotImplementedError`. */
  function PlainDecision(): (d: StepDef)
    ensures !RequiresInput(d)
    ensures forall prev, ext :: d.execute(prev, ext) == Ok(VNull)
    ensures forall prev, ext, res :: d.transition(prev, ext, res) == Err(NotImplemented)
  {
    UserDecision(BaseSchema(), (prev, ext, res) => Err(NotImplemented))
  }

  /** `__start__`: needs no input, returns `None` and always picks edge 0. */
  function StartStep(): (d: StepDef)
    ensures !RequiresInput(d)
    ensures forall prev, ext :: d.execute(prev, ext) == Ok(VNull)
    ensures forall prev, ext, res :: d.transition(prev, ext, res) == Ok(VInt(0))
  {
    UserStep(BaseSchema(), (prev, ext) => Ok(VNull))
  }

  /** `_perform_execute`: call `execute` with the external input of the
      current entry. */
  function PerformExecute(d: StepDef, log: Log, n: nat, prev: Value): (r: Result<Value>)
    ensures n < |log| && log[n].externalData.Some? ==> r == d.execute(prev, log[n].externalData.value)
    ensures n >= |log| || log[n].externalData.None? ==> r == d.execute(prev, VNull)
  {
    d.execute(prev, ExternalInputAt(log, n))
  }

  /** `_perform_transition`: call `transition` with the same external-input
      lookup and the step's result. */
  function PerformTransition(d: StepDef, log: Log, n: nat, prev: Value, result: Value): (r: Result<Value>)
    ensures n < |log| && log[n].externalData.Some? ==> r == d.transition(prev, log[n].externalData.value, result)
    ensures n >= |log| || log[n].externalData.None? ==> r == d.transition(prev, VNull, result)
  {
    d.transition(prev, ExternalInputAt(log, n), result)
  }

  /** Input stored for step `n` by `provide_external_input` is what that
      step's `execute` is handed, as long as the log reached position `n`;
      when it was shorter the payload was appended elsewhere and `execute`
      gets `None`. */
  lemma ExecuteSeesProvidedInput(d: StepDef, log: Log, n: nat, path: string, v: Value, prev: Value)
    ensures n <= |log| ==> PerformExecute(d, WriteExternal(log, n, path, v), n, prev) == d.execute(prev, v)
    ensures n > |log| ==> PerformExecute(d, WriteExternal(log, n, path, v), n, prev) == d.execute(prev, VNull)
  {
  }

  /** `transition` runs after the result has been written, yet it is handed
      the same external input `execute` was given. */
  lemma TransitionSeesExecuteInput(d: StepDef, log: Log, n: nat, path: string, prev: Value, result: Value)
    ensures PerformTransition(d, WriteResult(log, n, path, result), n, prev, result)
         == d.transition(prev, ExternalInputAt(log, n), result)
  {
  }
}

=== FILE: values.dfy ===
/** Values shared by every part of the engine: the JSON-like payloads that steps
    exchange, the exceptions the engine distinguishes, and Python list indexing. */
module Values {

  datatype Option<+T> = None | Some(value: T)

  /** A JSON-serialisable value as stored in a job's log (`None` is `VNull`).
      A float is its exact real value. */
  datatype Value =
    | VNull
    | VBool(b: bool)
    | VInt(i: int)
    | VFloat(f: real)
    | VStr(s: string)
    | VList(items: seq<Value>)
    | VDict(fields: map<string, Value>)

  /** Why `provide_external_input` refuses with `WrongState`. */
  datatype WrongStateCause = NoInputAccepted | NotAwaitingInput

  /** The exceptions that can occur while a job runs or receives input. */
  datatype Error =
    | NotImplemented          // an `execute`/`transition` left unimplemented
    | StepException           // any exception raised by user step code
    | IndexError
    | KeyError
    | TypeError
    | ValueError
    | AttributeError
    | ModuleNotFound
    | NotAStepClass           // a resolved object that cannot be used as a step
    | DoesNotExist            // no record with the looked-up key
    | MultipleObjectsReturned
    | ProgrammingError        // the table does not exist yet
    | RecursionLimit          // Python's recursion limit was hit
    | ValidationError         // the input schema rejected a payload
    | WrongState(cause: WrongStateCause)

  /** Either a returned value or a raised exception. */
  datatype Result<+T> = Ok(value: T) | Err(error: Error)

  /** The integer Python's `s[v]` indexes with (`operator.index`): an `int`,
      or a `bool` as 0 or 1 since `bool` is a subclass of `int`. Anything
      else, a float included, raises `TypeError` (here: `None`). */
  function IndexValue(v: Value): (r: Option<int>)
    ensures r.Some? <==> v.VInt? || v.VBool?
    ensures v.VInt? ==> r == Some(v.i)
    ensures v == VBool(false) ==> r == Some(0)
    ensures v == VBool(true) ==> r == Some(1)
  {
    match v
    case VInt(i) => Some(i)
    case VBool(b) => Some(if b then 1 else 0)
    case _ => None
  }

  /** Python's `s[i]`: negative indices count from the end, and anything out of
      range raises `IndexError` (here: `None`). */
  function PyIndex<T>(s: seq<T>, i: int): (r: Option<T>)
    ensures r.Some? <==> -|s| <= i < |s|
    ensures 0 <= i < |s| ==> r == Some(s[i])
    ensures -|s| <= i < 0 ==> r == Some(s[|s| + i])
  {
    if 0 <= i < |s| then Some(s[i])
    else if -|s| <= i < 0 then Some(s[|s| + i])
    else None
  }
}

=== FILE: watchdog.dfy ===
/** The `Watchdog` singleton and its `running` flag, which makes the
    reconciler's scheduler start at most once (`set_watchdog_on_wdk_models`
    and `deregister_watchdog`). The table maps primary keys to the flag. */
module Watchdog {
  import opened Values

  /** The flag table, or `Unmigrated` when it does not exist in the database. */
  datatype FlagTable = Unmigrated | Table(rows: map<int, bool>)

  const SingletonKey: int := 1

  /** `Singleton.load`: `get_or_create(pk=1)`, a new row holding `running = False`. */
  function Load(rows: map<int, bool>): (r: (map<int, bool>, bool))
    ensures SingletonKey in r.0
    ensures r.1 == r.0[SingletonKey]
    ensures SingletonKey in rows ==> r.0 == rows
    ensures SingletonKey !in rows ==> r.0 == rows[SingletonKey := false]
  {
    if SingletonKey in rows then (rows, rows[SingletonKey]) else (rows[SingletonKey := false], false)
  }

  /** `Singleton.save`: whatever the object's key was, the row written is row 1. */
  function Save(rows: map<int, bool>, running: bool): (r: map<int, bool>)
    ensures r.Keys == rows.Keys + {SingletonKey}
    ensures r[SingletonKey] == running
    ensures forall k | k in rows && k != SingletonKey :: r[k] == rows[k]
  {
    rows[SingletonKey := running]
  }

  /** `set_watchdog_on_wdk_models`: returns the new table and whether the
      scheduler was started. Without the table it prints a warning and
      returns. */
  function SetWatchdogOn(t: FlagTable): (r: (FlagTable, bool))
    // the scheduler starts exactly when the flag was not already set
    ensures r.1 <==> t.Table? && !(SingletonKey in t.rows && t.rows[SingletonKey])
    ensures t.Unmigrated? ==> r.0 == t
    // afterwards the flag is set, and only the singleton row may have changed
    ensures t.Table? ==> && r.0.Table? && SingletonKey in r.0.rows && r.0.rows[SingletonKey]
                         && r.0.rows.Keys == t.rows.Keys + {SingletonKey}
                         && forall k | k in t.rows && k != SingletonKey :: r.0.rows[k] == t.rows[k]
  {
    match t
    case Unmigrated => (t, false)
    case Table(rows) =>
      var (loaded, running) := Load(rows);
      if !running then (Table(Save(loaded, true)), true)
      else (Table(loaded), false)
  }

  /** `deregister_watchdog`: clears the flag. `Watchdog.load()` is not
      guarded here, so a missing table raises. */
  function DeregisterWatchdog(t: FlagTable): (r: Result<FlagTable>)
    ensures t.Unmigrated? ==> r == Err(ProgrammingError)
    ensures t.Table? ==> && r.Ok? && r.value.Table? && SingletonKey in r.value.rows && !r.value.rows[SingletonKey]
                         && r.value.rows.Keys == t.rows.Keys + {SingletonKey}
                         && forall k | k in t.rows && k != SingletonKey :: r.value.rows[k] == t.rows[k]
  {
    match t
    case Unmigrated => Err(ProgrammingError)
    case Table(rows) =>
      var (loaded, _) := Load(rows);
      Ok(Table(Save(loaded, false)))
  }

  /** Starting twice starts the scheduler once; after deregistering, the
      next start starts it again. */
  lemma StartsOnce(t: FlagTable)
    requires t.Table?
    ensures !SetWatchdogOn(SetWatchdogOn(t).0).1
    ensures SetWatchdogOn(DeregisterWatchdog(SetWatchdogOn(t).0).value).1
  {
  }
}

=== FILE: workflows.dfy ===
/** Workflow definitions: a `DIGRAPH` maps each step class to the ordered list
    of step classes it may continue with. A Python dict keeps insertion order,
    so the graph is an association list; a class absent from the keys, or
    mapped to an empty list, is terminal. */
module Workflows {
  import opened Values
  import opened Paths

  /** A class as the engine identifies it: its `__module__` and `__name__`. */
  datatype ClassRef = ClassRef(modulePath: string, name: string)

  /** The dotted path `__module__ + "." + __name__` stored in registry records. */
  function PathOf(c: ClassRef): string
  {
    Join(c.modulePath, c.name)
  }

  datatype Adjacency = Adjacency(node: ClassRef, next: seq<ClassRef>)

  type Digraph = seq<Adjacency>

  ghost predicate IsNode(g: Digraph, x: ClassRef)
  {
    exists i :: 0 <= i < |g| && g[i].node == x
  }

  ghost predicate IsTarget(g: Digraph, x: ClassRef)
  {
    exists i, j :: 0 <= i < |g| && 0 <= j < |g[i].next| && g[i].next[j] == x
  }

  /** `DIGRAPH.get(key)`: the successor list of the first entry for `key`. */
  function Successors(g: Digraph, key: ClassRef): (r: Option<seq<ClassRef>>)
    ensures r.None? <==> !IsNode(g, key)
    ensures r.Some? ==> exists i :: 0 <= i < |g| && g[i].node == key && g[i].next == r.value
  {
    if |g| == 0 then None
    else if g[0].node == key then Some(g[0].next)
    else
      var r := Successors(g[1..], key);
      assert forall i | 0 < i < |g| :: g[i] == g[1..][i - 1];
      r
  }

  /** `DIGRAPH.keys()`, in insertion order. */
  function Nodes(g: Digraph): (r: seq<ClassRef>)
    ensures |r| == |g|
    ensures forall i | 0 <= i < |g| :: r[i] == g[i].node
    ensures forall x :: x in r <==> IsNode(g, x)
  {
    if |g| == 0 then [] else [g[0].node] + Nodes(g[1..])
  }

  /** `[cls for sublist in DIGRAPH.values() for cls in sublist]`. */
  function Targets(g: Digraph): (r: seq<ClassRef>)
    ensures forall x :: x in r <==> IsTarget(g, x)
  {
    if |g| == 0 then []
    else
      var rest := Targets(g[1..]);
      assert forall x :: IsTarget(g, x) <==> x in g[0].next || IsTarget(g[1..], x) by {
        forall x
          ensures IsTarget(g, x) ==> x in g[0].next || IsTarget(g[1..], x)
        {
          if IsTarget(g, x) {
            var i, j :| 0 <= i < |g| && 0 <= j < |g[i].next| && g[i].next[j] == x;
            if i > 0 {
              assert g[1..][i - 1].next[j] == x;
            }
          }
        }
        forall x | IsTarget(g[1..], x)
          ensures IsTarget(g, x)
        {
          var i, j :| 0 <= i < |g[1..]| && 0 <= j < |g[1..][i].next| && g[1..][i].next[j] == x;
          assert g[i + 1].next[j] == x;
        }
      }
      g[0].next + rest
  }

  predicate Distinct<T(==)>(s: seq<T>)
  {
    forall i, j | 0 <= i < j < |s| :: s[i] != s[j]
  }

  /** Position of the first occurrence of `x` in `s`. */
  function FirstIndex<T(==)>(s: seq<T>, x: T): (r: nat)
    requires x in s
    ensures r < |s| && s[r] == x && x !in s[..r]
  {
    if s[0] == x then 0
    else
      var k := FirstIndex(s[1..], x);
      assert s[..k + 1] == [s[0]] + s[1..][..k];
      k + 1
  }

  /** A first occurrence inside a prefix is the first occurrence in the whole. */
  lemma FirstIndexOfPrefix<T>(s: seq<T>, k: nat, x: T)
    requires k <= |s| && x in s[..k]
    ensures x in s && FirstIndex(s[..k], x) == FirstIndex(s, x)
  {
    var i := FirstIndex(s[..k], x);
    assert s[..k][..i] == s[..i] && s[i] == x;
    var j := FirstIndex(s, x);
    // neither first occurrence can lie before the other
    assert forall m | 0 <= m < i :: s[..i][m] == s[m];
    assert forall m | 0 <= m < j :: s[..j][m] == s[m];
  }

  /** `list(dict.fromkeys(s))`: drops every repeated element, keeping first
      occurrences in their original order. */
  function Dedup<T(==, !new)>(s: seq<T>): (r: seq<T>)
    ensures forall x :: x in r <==> x in s
    ensures Distinct(r)
    ensures forall i, j | 0 <= i < j < |r| :: FirstIndex(s, r[i]) < FirstIndex(s, r[j])
  {
    if |s| == 0 then []
    else
      var init, last := s[..|s| - 1], s[|s| - 1];
      var p := Dedup(init);
      DedupSnoc(s, init, last, p);
      if last in p then p else p + [last]
  }

  /** Appending one element keeps the result of `Dedup` a deduplication:
      the element is added only when it is new, and then it occurs last. */
  lemma DedupSnoc<T>(s: seq<T>, init: seq<T>, last: T, p: seq<T>)
    requires s == init + [last]
    requires forall x :: x in p <==> x in init
    requires Distinct(p)
    requires forall i, j | 0 <= i < j < |p| :: FirstIndex(init, p[i]) < FirstIndex(init, p[j])
    ensures var r := if last in p then p else p + [last];
            && (forall x :: x in r <==> x in s)
            && Distinct(r)
            && forall i, j | 0 <= i < j < |r| :: FirstIndex(s, r[i]) < FirstIndex(s, r[j])
  {
    PrefixIndices(s, init, last);
    if last !in p {
      LastIndex(s, init, last);
    }
  }

  /** The elements of `init` keep their first positions in `init + [last]`. */
  lemma PrefixIndices<T>(s: seq<T>, init: seq<T>, last: T)
    requires s == init + [last]
    ensures forall x | x in init :: x in s && FirstIndex(init, x) == FirstIndex(s, x)
  {
    assert init == s[..|s| - 1];
    forall x | x in init
      ensures x in s && FirstIndex(init, x) == FirstIndex(s, x)
    {
      FirstIndexOfPrefix(s, |s| - 1, x);
    }
  }

  /** A new element first occurs at the end. */
  lemma LastIndex<T>(s: seq<T>, init: seq<T>, last: T)
    requires s == init + [last] && last !in init
    ensures last in s && FirstIndex(s, last) == |init|
  {
    assert s[|init|] == last && s[..|init|] == init;
  }

  /** `Workflow._get_steps_classes`: every class named in the graph, keys
      first and then successors, each once at its first occurrence. */
  function StepsClasses(digraph: Option<Digraph>): (r: seq<ClassRef>)
    ensures digraph.None? ==> r == []
    ensures digraph.Some? ==> forall x :: x in r <==> IsNode(digraph.value, x) || IsTarget(digraph.value, x)
    ensures Distinct(r)
    ensures digraph.Some? ==>
              forall i, j | 0 <= i < j < |r| ::
                FirstIndex(Nodes(digraph.value) + Targets(digraph.value), r[i])
                  < FirstIndex(Nodes(digraph.value) + Targets(digraph.value), r[j])
  {
    match digraph
    case None => []
    case Some(g) => Dedup(Nodes(g) + Targets(g))
  }

  /** In a sequence ordered by first occurrence in `s`, an element that
      occurs earlier in `s` sits at an earlier position. */
  lemma EarlierFirst<T>(s: seq<T>, r: seq<T>, i: nat, j: nat)
    requires i < |r| && j < |r| && forall x | x in r :: x in s
    requires forall p, q | 0 <= p < q < |r| :: FirstIndex(s, r[p]) < FirstIndex(s, r[q])
    requires FirstIndex(s, r[i]) < FirstIndex(s, r[j])
    ensures i < j
  {
  }

  /** Every graph key comes before every class that only appears as a successor. */
  lemma KeysComeFirst(g: Digraph, i: nat, j: nat)
    requires i < |StepsClasses(Some(g))| && j < |StepsClasses(Some(g))|
    requires IsNode(g, StepsClasses(Some(g))[i]) && !IsNode(g, StepsClasses(Some(g))[j])
    ensures i < j
  {
    var r := StepsClasses(Some(g));
    var all := Nodes(g) + Targets(g);
    var n := |Nodes(g)|;
    assert r[i] in all[..n] by {
      assert all[..n] == Nodes(g);
    }
    FirstIndexOfPrefix(all, n, r[i]);
    // a class outside the keys first occurs past them
    assert forall m | 0 <= m < n :: all[m] == Nodes(g)[m];
    EarlierFirst(all, r, i, j);
  }
}
